=== FILE: README.md ===
# video-transcriber, modelled in Dafny

video-transcriber turns the link of an online video into a plain-text
transcription. `transcribe_url` first works out which platform a link belongs
to and extracts the video's identifier (`detect_platform`). For YouTube links it
asks the caption service for an existing track (`_youtube_api`). In every other
case, and whenever that yields no text, it downloads the audio with the
external downloader (`_download_audio`) and sends the file to a hosted speech
model (`_groq_transcribe`). Every outcome becomes one result record with the
fields `success`, `text`, `platform`, `method` and `error`, and no exception
escapes. The web page (`app.py`) shows the text and offers a copy button. The
button embeds the text in a JavaScript template literal after escaping
backticks and `${`.

The model is a set of pure functions. The caption service, the downloader's
exit code, its standard error and the temporary directory's listing, the
configured credentials, whether the speech client libraries import, and the
speech service are all parameters.

| file | module | models |
|---|---|---|
| wrappers.dfy | `Wrappers` | `Option` and `Result` |
| text.dfy | `Text` | Python's `str.strip()`, `" ".join`, `split(" ")` and `s[:n]` |
| patterns.dfy | `Patterns` | the fragment of `re` the platform table uses, and `re.search` |
| platforms.dfy | `Platforms` | `PLATFORM_PATTERNS` and `detect_platform` |
| captions.dfy | `Captions` | the retry and language loop of `_youtube_api` |
| download.dfy | `Download` | the path resolution of `_download_audio` after the downloader exits |
| speech.dfy | `Speech` | the key lookup and the request of `_groq_transcribe` |
| transcriber.dfy | `Transcriber` | `transcribe_url` |
| clipboard.dfy | `Clipboard` | the escaping of the copy button, and the meaning of the literal it builds |

Points of the code that the model keeps as written:

- The `method` field holds `"youtube_api"` and `"groq_whisper"` (`Transcriber.MethodName`). The `platform` field holds the keys of `PLATFORM_PATTERNS` or `"generic"` (`Platforms.PlatformName`).
- The generic identifier is `url.split("/")[-1] or "video"`. This is the text after the last slash, and `"video"` when that text is empty. So `https://a.b/c/` gives `"video"`, not `"c"`.
- When the caption service returns an empty track, the text is `""`. `transcribe_url` treats `""` as no text and falls back to the download path (`Transcriber.NoCaptionsFallsBack`).
- The record's field `method` is called `via` in Dafny, because `method` is a keyword there.

`Transcriber.Respond` is everything `transcribe_url` does after `detect_platform`. `TranscribeUrl` applies it to the detected platform and identifier. The lemmas about the caption, download and speech paths are stated for `Respond`, so they hold for any platform and identifier, whatever link produced them.

## Model

| member | source | states |
|---|---|---|
| `Platforms.DetectPlatform` | transcriber.py:27-33 | The result is `generic` exactly when no pattern of the table matches. Any other identifier is a contiguous piece of the URL. The generic identifier is the text after the last slash, or `"video"` |
| `Platforms.DetectFirstMatch` | transcriber.py:28-32 | When pattern `k` of group `g` is the first in table order that matches, the result is that group's platform and that pattern's capture |
| `Platforms.DispatchFirstHit` | transcriber.py:28-32 | For any ordered table and any way of trying one pattern, the dispatch reports the first group and the first pattern within it that matches, with its capture |
| `Platforms.DispatchFrom` | transcriber.py:28-32 | From group `g` on, a reported hit is a pattern of the table that matches, with its capture, and no earlier pattern of those groups matches. No hit means no pattern of those groups matches |
| `Platforms.FirstInGroup` | transcriber.py:29-32 | Within one group, a reported pattern matches with that capture and no earlier pattern of the group matches. None means no pattern of the group matches |
| `Platforms.TableUnambiguous` | transcriber.py:10-25 | Every pattern of the table has prefix-free alternatives, and each run is followed by a literal that cannot start inside the run. So a match needs no backtracking |
| `Platforms.YouTubeIdFound` | transcriber.py:12 | A link with one of the three YouTube prefixes followed by 11 characters of `[A-Za-z0-9_-]` gives `youtube` and exactly those 11 characters, whatever precedes it, provided no YouTube match starts earlier. This holds whatever follows, so a longer id is cut to 11 |
| `Platforms.YouTubeIdFoundWithoutY` | transcriber.py:12 | In particular, a YouTube link preceded by text without a `y` gives `youtube` and exactly its 11 identifier characters |
| `Platforms.YouTubeFirst` | transcriber.py:11-13 | Any match of the YouTube pattern decides the result, since that group is tried first |
| `Platforms.YouTubeMatchesAt` | transcriber.py:12 | Where a YouTube prefix is followed by 11 identifier characters, the pattern matches there and captures those 11 characters |
| `Platforms.YouTubeMissesBefore` | transcriber.py:12 | The YouTube pattern cannot match before the first `y` of the URL |
| `Platforms.PlatformNamesDistinct` | transcriber.py:10-33 | The `platform` tags of different platforms differ, so the test `platform == "youtube"` at transcriber.py:131 holds for exactly the YouTube platform |
| `Platforms.GenericId` | transcriber.py:33 | The generic identifier is never empty. It is `"video"` for an empty URL or one that ends in a slash, and otherwise the text after the last slash |
| `Platforms.LastSegment` | transcriber.py:33 | `split("/")[-1]` is a slash-free suffix of the URL that is preceded by a slash or by nothing |
| `Platforms.LastSegmentUnique` | transcriber.py:33 | Only one string is the last slash-separated piece of a URL |
| `Patterns.Search` | transcriber.py:30-32 | A capture is a substring of the URL. No result means the pattern matches at no position |
| `Patterns.SearchFrom` | transcriber.py:30 | The reported position is the leftmost one at which the pattern matches |
| `Patterns.MatchAt` | transcriber.py:30 | Trying the pattern at one position gives, when it succeeds, a group span that lies within the text from that position on. `Patterns.MatchAtAgrees` ties it to the regular-expression reading |
| `Patterns.SearchIsLeftmost` | transcriber.py:30 | Under the regular-expression reading, the search finds the leftmost match with its group's span. It reports none only when no split of the URL matches |
| `Patterns.SearchFindsFirst` | transcriber.py:30-32 | A match at `i` with none before it is the one `re.search` reports, and its capture is the group's text |
| `Patterns.MatchAtAgrees` | transcriber.py:12-23 | For an unambiguous pattern, the matcher succeeds with a span exactly when some split of the text among the tokens matches with that span |
| `Patterns.MatchHeadComplete` | transcriber.py:12-23 | Every way the literals and runs can cover the text is the one the matcher finds |
| `Patterns.HeadBounds` | transcriber.py:12-23 | Whatever the matcher accepts is a split the regular expression accepts |
| `Patterns.MatchGroup` | transcriber.py:12-23 | The capture is a span the group accepts, and the only one: exactly 11 characters for `{11}`, the whole run for a final `+` |
| `Patterns.RunEnd` | transcriber.py:15 | A greedy run stops at the first character outside its class |
| `Captions.FetchCaptions` | transcriber.py:38-58 | Without the client library, no fetch and no text. Otherwise the adapter is the first success over the fetch plan |
| `Captions.RetryFollowsSchedule` | transcriber.py:44-57 | The nested retry and language loops make the same fetches and give the same text as trying the flat plan in order |
| `Captions.TryLanguagesFollowsBlock` | transcriber.py:48-54 | Within one attempt, languages are tried in the order `["es"]`, `["en"]`, then no `languages` argument, and the first track found ends the loop |
| `Captions.TryLanguages` | transcriber.py:48-54 | The inner loop's fetches all belong to the current attempt, and the `j`-th uses the `j`-th remaining language argument in the order `["es"]`, `["en"]`, none. A text is the space-join of the last fetch's track. No text means every remaining language argument was tried and failed |
| `Captions.RetryFrom` | transcriber.py:44-57 | Only attempts below `retries` whose client was built fetch, at most `3 * (retries - a)` times in all. A text is the space-join of the last fetch's track. No text means every fetch made failed |
| `Captions.RetryAttemptSpan` | transcriber.py:44-57 | The nested loops fetch at most three times per attempt: two fetches of the same attempt are fewer than three apart |
| `Captions.ScheduleAttemptSpan` | transcriber.py:44-54 | Two fetches of the same attempt are fewer than three places apart in the schedule |
| `Captions.ScheduleShape` | transcriber.py:44-54 | Fetches of one attempt lie within three consecutive places, so there are at most three per attempt, and at most `3 * retries` in all. The fetch at position `n` uses language `n % 3`. Only attempts whose client was built fetch, and attempts never go backwards |
| `Captions.FirstSuccessMeaning` | transcriber.py:48-54 | The fetches made are a prefix of the plan, and all but the last failed. The text is the last fetch's segments joined with single spaces. No text means every fetch of the plan failed |
| `Captions.FirstSuccessAppend` | transcriber.py:44-57 | Trying two plans one after the other is trying their concatenation |
| `Text.JoinWords` | transcriber.py:52 | The joined text is empty for no parts; otherwise its length is the parts' total length plus one per gap between consecutive parts |
| `Text.SplitJoinWords` | transcriber.py:52 | Splitting the joined text on spaces gives back the segments, when none contains a space |
| `Text.Take` | transcriber.py:77 | `stderr[:300]` is a prefix of at most 300 characters, and is all of a shorter text |
| `Download.ResolveDownload` | transcriber.py:76-86 | A non-zero exit code is exactly the case that reports the first 300 characters of standard error. Otherwise the requested file is returned when it exists, or else the first entry with the same stem. "Not found" is reported exactly when no entry has the stem |
| `Download.FirstWithStem` | transcriber.py:81-85 | The entry found is the first in listing order that `stem.*` matches. None is found only when no entry matches |
| `Download.HasStemGlob` | transcriber.py:82 | An entry matches `stem.*` exactly when it is the stem, a dot and any rest |
| `Download.ErrorMessage` | transcriber.py:76-84 | A message starts with `yt-dlp falló: ` exactly when the downloader failed, and then the rest is the standard-error excerpt. The not-found message is the other case |
| `Download.PathJoin` | transcriber.py:145 | `os.path.join`: the result ends with the name. An absolute name replaces the directory. Otherwise the name follows the directory, with a slash added only when the directory is non-empty and does not already end in one |
| `Speech.ApiKey` | transcriber.py:95-97 | The key is the secret when that is non-empty, and otherwise the environment value when that is non-empty. There is no key exactly when neither is usable, and a key is never empty |
| `Speech.Transcribe` | transcriber.py:91-110 | At most one request goes out, and one goes out exactly when the client libraries import and a key is configured. A failed import is reported before the key is looked at. Without a key the missing-key message is reported. Without a request there is never a text. The one request is for the whole file, with the key, `whisper-large-v3`, plain-text output and the caller's language, and the service's answer is the result |
| `Speech.UnsentRequestIrrelevant` | transcriber.py:92-97 | When no request is sent, the speech service cannot change the outcome |
| `Speech.ImportCheckedBeforeKey` | transcriber.py:92-97 | When the imports fail, the credentials cannot change the outcome and nothing is sent |
| `Transcriber.MethodNamesDistinct` | transcriber.py:136-162 | The `method` strings `youtube_api` and `groq_whisper` tell the two ways of obtaining the text apart |
| `Transcriber.TranscribeUrl` | transcriber.py:115-164 | `platform` is always the detected one. `success` holds exactly when `error` is absent, and exactly when `text` is present. `youtube_api` is used exactly when the link is YouTube and the captions are non-empty. Speech-path text is stripped |
| `Transcriber.Respond` | transcriber.py:130-164 | Given the detected platform and identifier: the platform is reported as given. `success` holds exactly when `error` is absent, and exactly when `text` is present. `youtube_api` is used exactly when the platform is YouTube and the captions are non-empty, and then the text is the caption text. Speech-path text is stripped |
| `Transcriber.Fallback` | transcriber.py:142-164 | Every outcome of the download-and-transcribe path has method `groq_whisper`. A failure of the download step is reported with that step's message, and a failure of the speech step with the import error, the missing-key message or the service's message. A success carries the service's text, stripped |
| `Transcriber.AudioFile` | transcriber.py:145-146 | The download step fails exactly when the downloader cannot start, exits non-zero, or leaves neither `<id>.mp3` nor an entry with the stem. Each failure carries its exception's message: the launch error, `yt-dlp falló: ` with the 300-character excerpt, or the not-found message. A success is `<id>.mp3` in the temporary directory when it exists, and otherwise the first listed entry with the stem |
| `Transcriber.CaptionText` | transcriber.py:132-133 | `if text:` accepts the caption text only when it is present and non-empty. No captions means the adapter returned nothing or an empty string |
| `Transcriber.CaptionsShortCircuit` | transcriber.py:131-140 | Once the captions succeed, the result no longer depends on the downloader, the credentials or the speech service |
| `Transcriber.OtherPlatformsSkipCaptions` | transcriber.py:131 | For non-YouTube links the caption service is never consulted and the method is `groq_whisper` |
| `Transcriber.NoCaptionsFallsBack` | transcriber.py:133 | No caption text, or an empty one, leads to the download path |
| `Transcriber.LaunchFailureReported` | transcriber.py:75 | On the download path, a downloader that cannot be started gives a failure whose error is the message of the exception `subprocess.run` raised |
| `Transcriber.ToolFailureReported` | transcriber.py:76-77 | On the download path, a non-zero exit gives a failure whose error is `yt-dlp falló: ` followed by the first 300 characters of standard error |
| `Transcriber.ArtifactMissingReported` | transcriber.py:81-84 | A clean exit that leaves no file with the stem gives the not-found message |
| `Transcriber.MissingKeyMakesNoRequest` | transcriber.py:95-97 | Without a key, the result does not depend on the speech service, and the download path fails |
| `Transcriber.ImportFailureReported` | transcriber.py:92-93 | On the download path, with a file but without the speech client libraries, the result fails with the import error, whatever the key |
| `Transcriber.MissingKeyReported` | transcriber.py:95-97 | On the download path, with a file, the libraries loaded and no key, the result fails with the missing-key message |
| `Transcriber.SpeechOutcomeReported` | transcriber.py:147-164 | With a file, the libraries loaded and a key, success carries the service's text stripped, and failure carries the service's error message |
| `Text.Strip` | transcriber.py:151 | The result is the text with whitespace removed from both ends and nothing else, using Python's whitespace set |
| `Text.StripUnique` | transcriber.py:151 | Any text obtained that way is `strip()`'s result |
| `Text.StripIdempotent` | transcriber.py:151 | Stripping stripped text changes nothing |
| `Clipboard.ReplaceLength` | app.py:27 | `str.replace`: each occurrence that `str.count` counts is exchanged for the replacement, so the length changes by that count times the difference in length |
| `Clipboard.EscapeForTemplate` | app.py:27 | The page's expression is the single left-to-right pass that puts a backslash before each backtick and each `${` and keeps everything else |
| `Clipboard.EscapeMatchesReference` | app.py:27 | The two chained replacements equal one left-to-right pass that escapes each backtick and each `${`. The first replacement creates no `${` |
| `Clipboard.BacktickPassKeepsDollarBraces` | app.py:27 | The backtick pass neither creates nor destroys a `${` |
| `Clipboard.EscapeInsertions` | app.py:27 | The output grows by exactly the number of backticks plus the number of `${`, and every backtick and every `${` in it follows a backslash |
| `Clipboard.EscapeUnchanged` | app.py:27 | Text without backticks and without `${` is left unchanged |
| `Clipboard.ReplaceAbsent` | app.py:27 | `str.replace` leaves a text without the pattern unchanged |
| `Clipboard.EscapeSoundWithoutBackslash` | app.py:27 | For text without backslashes and carriage returns, the literal the page builds has exactly the transcription as its value |
| `Clipboard.EscapePrefixCooks` | app.py:27 | Escaped text without backslashes and carriage returns is copied as itself in front of whatever follows, unless it ends in a `$` that the rest turns into a `${` |
| `Clipboard.BackslashOpensSubstitution` | app.py:27 | A transcription that contains `\${` after text without backslashes and carriage returns produces a literal that opens a live `${` substitution (`Substitution`), not a plain string |
| `Clipboard.TrailingBackslashUnterminated` | app.py:27 | A transcription whose only backslash is its last character produces a literal whose closing backtick is escaped, leaving it unterminated (`Unterminated`) |
| `Clipboard.CarriageReturnBecomesLineFeed` | app.py:27 | In text without backslashes and other carriage returns, a carriage return reaches the clipboard as a line feed, and a carriage return before a line feed disappears |
| `Clipboard.SafeEscapeRoundTrip` | app.py:27 | With backslashes, backticks, dollars and carriage returns escaped, the literal's value is exactly the transcription, for every text |

## Left out

- The downloader's invocation and argument list (transcriber.py:63-75): the model takes its exit code and standard error as inputs. A launch failure is an input carrying the exception's message.
- The temporary directory's creation and cleanup (transcriber.py:144): it is an input path and a directory listing. `glob` is read as "the name starts with the stem and a dot". Glob metacharacters in the identifier are read literally. `Path` normalisation of the directory is not modelled.
- The backoff pause between caption attempts (transcriber.py:57): timing only.
- The caption client library (transcriber.py:40-51) is an oracle for whether it imports, whether the client builds on attempt `a`, and what each fetch returns. Malformed track data is one of the fetch failures.
- The speech client, the file opening and the network (transcriber.py:99-110): the service is an oracle from the request to its text or to its error message.
- The `st.secrets` and environment lookups are inputs (`Speech.Credentials`). Whether `groq` and `streamlit` import (transcriber.py:92-93) is an input too, carrying the import error's message.
- Patterns.Search: only one direction of "no result exactly when no position matches" is stated on the function; the other direction is `Patterns.SearchFindsFirst`. Stating both as one contract made it too costly to verify.
- `\d` and `\w` are read over ASCII. Python's Unicode reading also admits other digits and letters.
- Matching is possessive, without backtracking. `Platforms.TableUnambiguous` and `Patterns.MatchAtAgrees` show this gives the same result as backtracking for every pattern of the table.
- Examples of concrete URLs are covered by `Platforms.YouTubeIdFound` and `Platforms.YouTubeIdFoundWithoutY`. Lemmas on fixed literal URLs cost too much to verify.
- Text.JoinWords: states the length of the joined text only. `Text.SplitJoinWords` states the contents, for segments without spaces.
- The spoken text is not modelled, and its non-determinism does not arise: every function here is deterministic. So two calls with the same URL and the same service answers give the same platform and method by construction.
- The page around the escaping (app.py, all but line 27), and the HTML layer in which the script sits: a `</script>` in the text is not modelled. `Clipboard.Cook` covers the escapes `` \` ``, `\$`, `\\`, `\n`, `\r` and `\t`. Any other escape cooks to `Unmodelled`.
- Clipboard.BackslashOpensSubstitution: stated for a `\${` after text that has no backslashes and no carriage returns. Backslash escapes earlier in the text may change the outcome, and `Clipboard.Cook` does not read every escape (see above).
- Clipboard.TrailingBackslashUnterminated: stated for a trailing backslash after text that has no backslashes and no carriage returns. An even run of trailing backslashes, such as `a\\`, does terminate the literal.
- Clipboard.CarriageReturnBecomesLineFeed: stated for one carriage return in text that has no backslashes and no other carriage returns.

## Findings

| source | as written | input that shows it | evidently intended | confidence | as-written member | corrected member |
|---|---|---|---|---|---|---|
| app.py:27 | Only backticks and `${` are escaped. A backslash in the transcription stays a live escape character inside the template literal | `a\${x}` turns into `a\\${x}`, which opens a `${x}` substitution | The copied text equals the transcription for every text, so backslashes must be escaped too | high; not executed | `Clipboard.BackslashOpensSubstitution` | `Clipboard.SafeEscapeRoundTrip` |
| app.py:27 | A trailing backslash is embedded as it is | `a\` puts a backslash before the page's closing backtick, which leaves the literal unterminated | The copied text equals the transcription for every text | high; not executed | `Clipboard.TrailingBackslashUnterminated` | `Clipboard.SafeEscapeRoundTrip` |
| app.py:27 | A carriage return is embedded raw, and JavaScript cooks it to a line feed | `"a\rb"` is copied as `"a\nb"`, and `"a\r\nb"` as `"a\nb"` | The copied text keeps carriage returns (escaped as `\r`) | medium; not executed | `Clipboard.CarriageReturnBecomesLineFeed` | `Clipboard.SafeEscapeRoundTrip` |

=== FILE: captions.dfy ===
/**
 The caption adapter `_youtube_api`: up to `retries` attempts, each constructing a
 client and then fetching the video's captions with the language argument
 `["es"]`, then `["en"]`, then none at all, and returning the first track found
 as its segment texts joined by single spaces.

 The caption service is an oracle: which attempts manage to construct a client
 and what each fetch returns are parameters. The backoff pause between attempts
 is not modelled.
 */
module Captions {
  import opened Wrappers
  import opened Text

  /** The language argument of one fetch: `["es"]`, `["en"]`, or no `languages` argument at all. */
  datatype Lang = Spanish | English | NoLanguageArgument

  const LanguageOrder: seq<Lang> := [Spanish, English, NoLanguageArgument]

  /** The number of attempts `_youtube_api` makes by default. */
  const DefaultRetries: int := 3

  /**
   The caption service. `installed` tells whether the client library imports;
   `connects(a)` whether constructing the client succeeds on attempt `a`; and
   `fetch(id, a, lang)` is the segment texts of the track fetched for video `id`
   on attempt `a` with language argument `lang`, or `None` when that call raises.
   */
  datatype CaptionService = CaptionService(
    installed: bool,
    connects: nat -> bool,
    fetch: (string, nat, Lang) -> Option<seq<string>>)

  /** One fetch: the attempt it belongs to and its language argument. */
  datatype Call = Call(attempt: nat, lang: Lang)

  /** What the adapter returns, together with the fetches it made, in order. */
  datatype CaptionRun = CaptionRun(text: Option<string>, calls: seq<Call>)

  function Fetched(svc: CaptionService, id: string, c: Call): Option<seq<string>> {
    svc.fetch(id, c.attempt, c.lang)
  }

  // ---------------------------------------------------------------------------
  // The reference: a flat plan of fetches, tried in order until one succeeds

  /** The three fetches of attempt `a`, in language order. */
  function Block(a: nat): seq<Call> {
    [Call(a, Spanish), Call(a, English), Call(a, NoLanguageArgument)]
  }

  /** Every fetch made from attempt `a` on when none of them succeeds. */
  function Schedule(svc: CaptionService, a: nat, retries: int): seq<Call>
    decreases retries - a
  {
    if a >= retries then []
    else (if svc.connects(a) then Block(a) else []) + Schedule(svc, a + 1, retries)
  }

  /** Try the fetches of `plan` in order and stop at the first that returns a track. */
  function FirstSuccess(svc: CaptionService, id: string, plan: seq<Call>): CaptionRun {
    if plan == [] then CaptionRun(None, [])
    else
      match Fetched(svc, id, plan[0])
      case Some(segments) => CaptionRun(Some(JoinWords(segments)), [plan[0]])
      case None =>
        var rest := FirstSuccess(svc, id, plan[1..]);
        CaptionRun(rest.text, [plan[0]] + rest.calls)
  }

  /**
   The fetches made are a prefix of the plan and all but the last failed; a text is
   the last fetch's segments joined by spaces, and no text means every fetch failed.
   */
  lemma {:induction false} FirstSuccessMeaning(svc: CaptionService, id: string, plan: seq<Call>)
    ensures var r := FirstSuccess(svc, id, plan);
      && r.calls <= plan
      && (forall n :: 0 <= n < |r.calls| - 1 ==> Fetched(svc, id, r.calls[n]).None?)
      && (r.text.Some? ==>
            && r.calls != []
            && Fetched(svc, id, r.calls[|r.calls| - 1]).Some?
            && r.text.value == JoinWords(Fetched(svc, id, r.calls[|r.calls| - 1]).value))
      && (r.text.None? ==> r.calls == plan && forall n :: 0 <= n < |plan| ==> Fetched(svc, id, plan[n]).None?)
  {
    if plan != [] && Fetched(svc, id, plan[0]).None? {
      var rest := FirstSuccess(svc, id, plan[1..]);
      FirstSuccessMeaning(svc, id, plan[1..]);
      var calls := [plan[0]] + rest.calls;
      assert calls == FirstSuccess(svc, id, plan).calls;
      assert plan == [plan[0]] + plan[1..];
      forall n | 1 <= n < |calls|
        ensures calls[n] == rest.calls[n - 1]
      {
      }
      if rest.text.None? {
        forall n | 1 <= n < |plan|
          ensures plan[n] == plan[1..][n - 1]
        {
        }
      }
    }
  }

  /** At most three fetches per attempt. */
  lemma {:induction false} ScheduleLength(svc: CaptionService, a: nat, retries: int)
    ensures |Schedule(svc, a, retries)| <= 3 * (if a < retries then retries - a else 0)
    decreases retries - a
  {
    if a < retries {
      ScheduleLength(svc, a + 1, retries);
    }
  }

  /** Each fetch's language follows the order es, en, any; its attempt is in range and connected. */
  lemma {:induction false} ScheduleCalls(svc: CaptionService, a: nat, retries: int)
    ensures forall n :: 0 <= n < |Schedule(svc, a, retries)| ==>
      && Schedule(svc, a, retries)[n].lang == LanguageOrder[n % 3]
      && a <= Schedule(svc, a, retries)[n].attempt < retries
      && svc.connects(Schedule(svc, a, retries)[n].attempt)
    decreases retries - a
  {
    if a < retries {
      var s := Schedule(svc, a, retries);
      var b := if svc.connects(a) then Block(a) else [];
      var rest := Schedule(svc, a + 1, retries);
      assert s == b + rest;
      ScheduleCalls(svc, a + 1, retries);
      forall n | |b| <= n < |s|
        ensures s[n] == rest[n - |b|] && (n - |b|) % 3 == n % 3
      {
      }
    }
  }

  /** Attempts never go backwards along the schedule. */
  lemma {:induction false} ScheduleOrdered(svc: CaptionService, a: nat, retries: int)
    ensures forall n, m :: 0 <= n < m < |Schedule(svc, a, retries)| ==>
      Schedule(svc, a, retries)[n].attempt <= Schedule(svc, a, retries)[m].attempt
    decreases retries - a
  {
    if a < retries {
      var s := Schedule(svc, a, retries);
      var b := if svc.connects(a) then Block(a) else [];
      var rest := Schedule(svc, a + 1, retries);
      assert s == b + rest;
      ScheduleCalls(svc, a + 1, retries);
      ScheduleOrdered(svc, a + 1, retries);
      OrderedAfterBlock(b, rest, a);
    }
  }

  /** Calls of attempt `a` followed by ordered calls of later attempts are ordered. */
  lemma OrderedAfterBlock(b: seq<Call>, rest: seq<Call>, a: nat)
    requires forall k :: 0 <= k < |b| ==> b[k].attempt == a
    requires forall k :: 0 <= k < |rest| ==> a < rest[k].attempt
    requires forall n, m :: 0 <= n < m < |rest| ==> rest[n].attempt <= rest[m].attempt
    ensures forall n, m :: 0 <= n < m < |b + rest| ==> (b + rest)[n].attempt <= (b + rest)[m].attempt
  {
    var s := b + rest;
    forall n, m | 0 <= n < m < |s|
      ensures s[n].attempt <= s[m].attempt
    {
      if m < |b| {
        assert s[n] == b[n] && s[m] == b[m];
      } else if n < |b| {
        assert s[n] == b[n] && s[m] == rest[m - |b|];
      } else {
        assert s[n] == rest[n - |b|] && s[m] == rest[m - |b|];
      }
    }
  }

  /** Fetches of the same attempt lie within three consecutive places of the schedule. */
  lemma {:induction false} ScheduleAttemptSpan(svc: CaptionService, a: nat, retries: int)
    ensures forall n, m ::
      0 <= n < m < |Schedule(svc, a, retries)| && Schedule(svc, a, retries)[n].attempt == Schedule(svc, a, retries)[m].attempt
      ==> m - n < 3
    decreases retries - a
  {
    if a < retries {
      var s := Schedule(svc, a, retries);
      var b := if svc.connects(a) then Block(a) else [];
      var rest := Schedule(svc, a + 1, retries);
      assert s == b + rest;
      ScheduleCalls(svc, a + 1, retries);
      ScheduleAttemptSpan(svc, a + 1, retries);
      forall n, m | 0 <= n < m < |s| && s[n].attempt == s[m].attempt
        ensures m - n < 3
      {
        if m < |b| {
          assert |b| <= 3;
        } else if n < |b| {
          assert false;
        } else {
          assert s[n] == rest[n - |b|] && s[m] == rest[m - |b|];
        }
      }
    }
  }

  /**
   Languages are tried in the order es, en, then no argument; each attempt fetches at
   most three times, attempts go up and stay below `retries`.
   */
  lemma ScheduleShape(svc: CaptionService, a: nat, retries: int)
    ensures |Schedule(svc, a, retries)| <= 3 * (if a < retries then retries - a else 0)
    ensures forall n :: 0 <= n < |Schedule(svc, a, retries)| ==>
      && Schedule(svc, a, retries)[n].lang == LanguageOrder[n % 3]
      && a <= Schedule(svc, a, retries)[n].attempt < retries
      && svc.connects(Schedule(svc, a, retries)[n].attempt)
    ensures forall n, m :: 0 <= n < m < |Schedule(svc, a, retries)| ==>
      Schedule(svc, a, retries)[n].attempt <= Schedule(svc, a, retries)[m].attempt
    ensures forall n, m ::
      0 <= n < m < |Schedule(svc, a, retries)| && Schedule(svc, a, retries)[n].attempt == Schedule(svc, a, retries)[m].attempt
      ==> m - n < 3
  {
    ScheduleAttemptSpan(svc, a, retries);
    ScheduleLength(svc, a, retries);
    ScheduleCalls(svc, a, retries);
    ScheduleOrdered(svc, a, retries);
  }

  // ---------------------------------------------------------------------------
  // The adapter, loop by loop

  /** The inner loop of one attempt: language arguments from index `n` of the order on. */
  function TryLanguages(svc: CaptionService, id: string, a: nat, n: nat): (r: CaptionRun)
    requires n <= |LanguageOrder|
    // every fetch belongs to this attempt, at most one per remaining language argument
    ensures forall c :: c in r.calls ==> c.attempt == a
    ensures |r.calls| <= |LanguageOrder| - n
    // the fetches use the remaining language arguments in order
    ensures forall j :: 0 <= j < |r.calls| ==> r.calls[j] == Call(a, LanguageOrder[n + j])
    // a text comes from the last fetch, which is the first that returned a track
    ensures r.text.Some? ==>
      && r.calls != []
      && Fetched(svc, id, r.calls[|r.calls| - 1]).Some?
      && r.text.value == JoinWords(Fetched(svc, id, r.calls[|r.calls| - 1]).value)
    // no text means every remaining language argument was tried, and all failed
    ensures r.text.None? ==>
      && |r.calls| == |LanguageOrder| - n
      && forall c :: c in r.calls ==> Fetched(svc, id, c).None?
    decreases |LanguageOrder| - n
  {
    if n == |LanguageOrder| then CaptionRun(None, [])
    else
      var call := Call(a, LanguageOrder[n]);
      match Fetched(svc, id, call)
      case Some(segments) => CaptionRun(Some(JoinWords(segments)), [call])
      case None =>
        var rest := TryLanguages(svc, id, a, n + 1);
        CaptionRun(rest.text, [call] + rest.calls)
  }

  /** The outer loop from attempt `a` on; an attempt whose client cannot be built makes no fetch. */
  function RetryFrom(svc: CaptionService, id: string, a: nat, retries: int): (r: CaptionRun)
    // only attempts from `a` below `retries` fetch, and each fetches at most three times
    ensures forall c :: c in r.calls ==> a <= c.attempt < retries && svc.connects(c.attempt)
    ensures |r.calls| <= 3 * (if a < retries then retries - a else 0)
    // a text comes from the last fetch, which returned a track
    ensures r.text.Some? ==>
      && r.calls != []
      && Fetched(svc, id, r.calls[|r.calls| - 1]).Some?
      && r.text.value == JoinWords(Fetched(svc, id, r.calls[|r.calls| - 1]).value)
    // no text means every fetch made failed
    ensures r.text.None? ==> forall c :: c in r.calls ==> Fetched(svc, id, c).None?
    decreases retries - a
  {
    if a >= retries then CaptionRun(None, [])
    else if !svc.connects(a) then RetryFrom(svc, id, a + 1, retries)
    else
      var tried := TryLanguages(svc, id, a, 0);
      if tried.text.Some? then tried
      else
        var rest := RetryFrom(svc, id, a + 1, retries);
        CaptionRun(rest.text, tried.calls + rest.calls)
  }

  /** Trying a plan that is two plans one after the other. */
  lemma {:induction false} FirstSuccessAppend(svc: CaptionService, id: string, xs: seq<Call>, ys: seq<Call>)
    ensures FirstSuccess(svc, id, xs + ys) ==
      if FirstSuccess(svc, id, xs).text.Some? then FirstSuccess(svc, id, xs)
      else CaptionRun(FirstSuccess(svc, id, ys).text, xs + FirstSuccess(svc, id, ys).calls)
  {
    if xs == [] {
      assert xs + ys == ys;
    } else {
      var p := xs + ys;
      assert p[0] == xs[0];
      assert p[1..] == xs[1..] + ys;
      if Fetched(svc, id, xs[0]).None? {
        FirstSuccessAppend(svc, id, xs[1..], ys);
        var tail := FirstSuccess(svc, id, xs[1..]);
        if tail.text.None? {
          var later := FirstSuccess(svc, id, ys).calls;
          assert [xs[0]] + (xs[1..] + later) == xs + later;
        }
      }
    }
  }

  /** The inner loop tries the rest of the attempt's block in order. */
  lemma {:induction false} TryLanguagesFollowsBlock(svc: CaptionService, id: string, a: nat, n: nat)
    requires n <= |LanguageOrder|
    ensures TryLanguages(svc, id, a, n) == FirstSuccess(svc, id, Block(a)[n..])
    decreases |LanguageOrder| - n
  {
    if n < |LanguageOrder| {
      assert Block(a)[n] == Call(a, LanguageOrder[n]);
      assert Block(a)[n..][1..] == Block(a)[n + 1..];
      TryLanguagesFollowsBlock(svc, id, a, n + 1);
    }
  }

  /** The two nested loops make exactly the fetches of the schedule, up to the first success. */
  lemma {:induction false} RetryFollowsSchedule(svc: CaptionService, id: string, a: nat, retries: int)
    ensures RetryFrom(svc, id, a, retries) == FirstSuccess(svc, id, Schedule(svc, a, retries))
    decreases retries - a
  {
    if a < retries {
      RetryFollowsSchedule(svc, id, a + 1, retries);
      if svc.connects(a) {
        RetryConnectedStep(svc, id, a, retries);
      } else {
        assert Schedule(svc, a, retries) == Schedule(svc, a + 1, retries);
      }
    }
  }

  /** An attempt whose client is built runs its block, then the later attempts if the block found nothing. */
  lemma RetryConnectedStep(svc: CaptionService, id: string, a: nat, retries: int)
    requires a < retries && svc.connects(a)
    requires RetryFrom(svc, id, a + 1, retries) == FirstSuccess(svc, id, Schedule(svc, a + 1, retries))
    ensures RetryFrom(svc, id, a, retries) == FirstSuccess(svc, id, Schedule(svc, a, retries))
  {
    var later := Schedule(svc, a + 1, retries);
    RetryConnectedUnfold(svc, id, a, retries);
    TryLanguagesFollowsBlock(svc, id, a, 0);
    assert Block(a)[0..] == Block(a);
    FailedRunTriesAll(svc, id, Block(a));
    ScheduleConnected(svc, a, retries);
    FirstSuccessAppend(svc, id, Block(a), later);
  }

  /** A plan that yields no text was tried to the end. */
  lemma {:induction false} FailedRunTriesAll(svc: CaptionService, id: string, plan: seq<Call>)
    ensures FirstSuccess(svc, id, plan).text.None? ==> FirstSuccess(svc, id, plan).calls == plan
  {
    if plan != [] && Fetched(svc, id, plan[0]).None? {
      FailedRunTriesAll(svc, id, plan[1..]);
      assert [plan[0]] + plan[1..] == plan;
    }
  }

  lemma RetryConnectedUnfold(svc: CaptionService, id: string, a: nat, retries: int)
    requires a < retries && svc.connects(a)
    ensures RetryFrom(svc, id, a, retries) ==
      if TryLanguages(svc, id, a, 0).text.Some? then TryLanguages(svc, id, a, 0)
      else CaptionRun(RetryFrom(svc, id, a + 1, retries).text,
                      TryLanguages(svc, id, a, 0).calls + RetryFrom(svc, id, a + 1, retries).calls)
  {
  }

  lemma ScheduleConnected(svc: CaptionService, a: nat, retries: int)
    requires a < retries && svc.connects(a)
    ensures Schedule(svc, a, retries) == Block(a) + Schedule(svc, a + 1, retries)
  {
  }

  /** The nested loops fetch at most three times per attempt: fetches of one attempt are fewer than three apart. */
  lemma RetryAttemptSpan(svc: CaptionService, id: string, a: nat, retries: int)
    ensures var calls := RetryFrom(svc, id, a, retries).calls;
      forall n, m :: 0 <= n < m < |calls| && calls[n].attempt == calls[m].attempt ==> m - n < 3
  {
    RetryFollowsSchedule(svc, id, a, retries);
    FirstSuccessMeaning(svc, id, Schedule(svc, a, retries));
    ScheduleAttemptSpan(svc, a, retries);
  }

  /**
   `_youtube_api(video_id, retries)`: nothing when the client library is missing;
   otherwise the first track of the schedule, in order, that the service returns.
   */
  function FetchCaptions(svc: CaptionService, id: string, retries: int): (r: CaptionRun)
    ensures !svc.installed ==> r == CaptionRun(None, [])
    ensures svc.installed ==> r == FirstSuccess(svc, id, Schedule(svc, 0, retries))
  {
    if !svc.installed then CaptionRun(None, [])
    else
      RetryFollowsSchedule(svc, id, 0, retries);
      RetryFrom(svc, id, 0, retries)
  }
}

=== FILE: clipboard.dfy ===
/**
 The copy-to-clipboard button of the web page: the transcription is embedded as
 a JavaScript template literal (the text between two backticks in an inline
 script), after `str.replace` has put a backslash before every backtick and
 every `${`.

 `Cook` is the meaning such a literal body has in JavaScript (ECMA-262, section
 12.9.6 "Template Literal Lexical Components" and the cooked value of section
 12.9.6.1 "Static Semantics: TV"): it says which string the script copies, or
 that the body ends the literal early, opens a substitution, or leaves the
 literal unterminated.
 */
module Clipboard {
  import opened Text

  /** Python's `s.count(pat)` for a non-empty pattern: occurrences found left to right, without overlaps. */
  function Count(s: string, pat: string): nat
    requires pat != []
    decreases |s|
  {
    if s == [] then 0
    else if pat <= s then 1 + Count(s[|pat|..], pat)
    else Count(s[1..], pat)
  }

  /** Python's `s.replace(pat, rep)` for a non-empty pattern: left to right, without overlaps. */
  function Replace(s: string, pat: string, rep: string): string
    requires pat != []
    decreases |s|
  {
    if s == [] then []
    else if pat <= s then rep + Replace(s[|pat|..], pat, rep)
    else [s[0]] + Replace(s[1..], pat, rep)
  }

  /** Every counted occurrence is exchanged for the replacement, and nothing else changes length. */
  lemma {:induction false} ReplaceLength(s: string, pat: string, rep: string)
    requires pat != []
    ensures |Replace(s, pat, rep)| == |s| + Count(s, pat) * (|rep| - |pat|)
    decreases |s|
  {
    if s != [] {
      if pat <= s {
        var t := s[|pat|..];
        ReplaceLength(t, pat, rep);
        assert |Replace(s, pat, rep)| == |rep| + |Replace(t, pat, rep)|;
        assert Count(s, pat) == 1 + Count(t, pat) && |t| == |s| - |pat|;
        OneMoreOccurrence(|s|, |pat|, |rep|, Count(t, pat));
      } else {
        ReplaceLength(s[1..], pat, rep);
      }
    }
  }

  /** One more occurrence changes the length by one more difference of pattern and replacement. */
  lemma OneMoreOccurrence(n: int, p: int, q: int, c: int)
    ensures n + (1 + c) * (q - p) == q + (n - p) + c * (q - p)
  {
    assert (1 + c) * (q - p) == (q - p) + c * (q - p);
  }

  /** `pat` occurs in `s` at index `i`. */
  predicate OccursAt(s: string, pat: string, i: nat) {
    i + |pat| <= |s| && s[i..i + |pat|] == pat
  }

  /** A text without the pattern comes back unchanged. */
  lemma {:induction false} ReplaceAbsent(s: string, pat: string, rep: string)
    requires pat != []
    requires forall i :: 0 <= i < |s| ==> !OccursAt(s, pat, i)
    ensures Replace(s, pat, rep) == s
    decreases |s|
  {
    if s != [] {
      assert !OccursAt(s, pat, 0);
      assert !(pat <= s);
      forall i | 0 <= i < |s[1..]|
        ensures !OccursAt(s[1..], pat, i)
      {
        assert !OccursAt(s, pat, i + 1);
        if i + |pat| <= |s[1..]| {
          assert s[1..][i..i + |pat|] == s[i + 1..i + 1 + |pat|];
        }
      }
      ReplaceAbsent(s[1..], pat, rep);
      assert [s[0]] + s[1..] == s;
    }
  }

  /**
   The escaping expression of the page, as written: it is the single pass
   `EscapeRef`, so it puts a backslash before every backtick and every `${` and
   changes nothing else.
   */
  function EscapeForTemplate(s: string): (r: string)
    ensures r == EscapeRef(s)
  {
    EscapeMatchesReference(s);
    Replace(Replace(s, "`", "\\`"), "${", "\\${")
  }

  /** `t` starts with `${`. */
  predicate DollarBrace(t: string) {
    |t| >= 2 && t[0] == '$' && t[1] == '{'
  }

  /** A single left-to-right pass that escapes the same things. */
  function EscapeRef(s: string): string
    decreases |s|
  {
    if s == [] then []
    else if s[0] == '`' then "\\`" + EscapeRef(s[1..])
    else if DollarBrace(s) then "\\${" + EscapeRef(s[2..])
    else [s[0]] + EscapeRef(s[1..])
  }

  /** The first character of an escaped text is a backslash or the original first character. */
  lemma EscapeFirst(s: string)
    requires s != []
    ensures EscapeRef(s) != []
    ensures EscapeRef(s)[0] == if s[0] == '`' || DollarBrace(s) then '\\' else s[0]
  {
  }

  /** One step of the single pass, for each kind of first character. */
  lemma EscapeRefBacktick(s: string)
    requires s != [] && s[0] == '`'
    ensures EscapeRef(s) == ['\\'] + (['`'] + EscapeRef(s[1..]))
  {
  }

  lemma EscapeRefDollar(s: string)
    requires DollarBrace(s)
    ensures EscapeRef(s) == ['\\', '$'] + ("{" + EscapeRef(s[2..]))
  {
  }

  lemma EscapeRefPlain(s: string)
    requires s != [] && s[0] != '`' && !DollarBrace(s)
    ensures EscapeRef(s) == [s[0]] + EscapeRef(s[1..])
  {
  }

  lemma ReplaceBacktickStep(s: string)
    requires s != []
    ensures Replace(s, "`", "\\`") == (if s[0] == '`' then "\\`" else [s[0]]) + Replace(s[1..], "`", "\\`")
  {
  }

  /** The `${` replacement copies a character that does not start a `${`. */
  lemma ReplaceDollarPlain(c: char, x: string)
    requires c != '$' || x == [] || x[0] != '{'
    ensures Replace([c] + x, "${", "\\${") == [c] + Replace(x, "${", "\\${")
  {
    var t := [c] + x;
    assert t[0] == c && t[1..] == x;
    assert !("${" <= t) by {
      if |t| >= 2 {
        assert t[..2] == [c, x[0]];
      }
    }
  }

  /** The `${` replacement escapes a `${` at the front. */
  lemma ReplaceDollarHit(x: string)
    ensures Replace("${" + x, "${", "\\${") == "\\${" + Replace(x, "${", "\\${")
  {
    assert ("${" + x)[2..] == x;
  }

  /** The two chained replacements are the single pass: the first inserts no `$` and no `{`. */
  lemma {:induction false} EscapeMatchesReference(s: string)
    ensures Replace(Replace(s, "`", "\\`"), "${", "\\${") == EscapeRef(s)
    decreases |s|
  {
    if s == [] {
    } else if s[0] == '`' {
      EscapeMatchesReference(s[1..]);
      EscapeBacktickCase(s);
    } else if DollarBrace(s) {
      EscapeMatchesReference(s[2..]);
      EscapeDollarCase(s);
    } else {
      EscapeMatchesReference(s[1..]);
      EscapePlainCase(s);
    }
  }

  lemma EscapeBacktickCase(s: string)
    requires s != [] && s[0] == '`'
    requires Replace(Replace(s[1..], "`", "\\`"), "${", "\\${") == EscapeRef(s[1..])
    ensures Replace(Replace(s, "`", "\\`"), "${", "\\${") == EscapeRef(s)
  {
    var rest := Replace(s[1..], "`", "\\`");
    calc {
      Replace(Replace(s, "`", "\\`"), "${", "\\${");
      { ReplaceBacktickStep(s);
        assert Replace(s, "`", "\\`") == ['\\'] + (['`'] + rest); }
      Replace(['\\'] + (['`'] + rest), "${", "\\${");
      { ReplaceDollarPlain('\\', ['`'] + rest); }
      ['\\'] + Replace(['`'] + rest, "${", "\\${");
      { ReplaceDollarPlain('`', rest); }
      ['\\'] + (['`'] + Replace(rest, "${", "\\${"));
      ['\\'] + (['`'] + EscapeRef(s[1..]));
      { EscapeRefBacktick(s); }
      EscapeRef(s);
    }
  }

  lemma EscapeDollarCase(s: string)
    requires DollarBrace(s)
    requires Replace(Replace(s[2..], "`", "\\`"), "${", "\\${") == EscapeRef(s[2..])
    ensures Replace(Replace(s, "`", "\\`"), "${", "\\${") == EscapeRef(s)
  {
    var rest := Replace(s[2..], "`", "\\`");
    ReplaceBacktickStep(s);
    ReplaceBacktickStep(s[1..]);
    assert s[1..][1..] == s[2..];
    assert Replace(s, "`", "\\`") == "${" + rest;
    ReplaceDollarHit(rest);
    EscapeRefDollar(s);
  }

  lemma EscapePlainCase(s: string)
    requires s != [] && s[0] != '`' && !DollarBrace(s)
    requires Replace(Replace(s[1..], "`", "\\`"), "${", "\\${") == EscapeRef(s[1..])
    ensures Replace(Replace(s, "`", "\\`"), "${", "\\${") == EscapeRef(s)
  {
    var rest := Replace(s[1..], "`", "\\`");
    ReplaceBacktickStep(s);
    if |s| > 1 {
      ReplaceBacktickStep(s[1..]);
      assert s[..2] == [s[0], s[1]];
    }
    ReplaceDollarPlain(s[0], rest);
    EscapeRefPlain(s);
  }

  /** Text without backticks and without `${` passes through the escaping unchanged. */
  lemma EscapeUnchanged(s: string)
    requires forall i :: 0 <= i < |s| ==> !OccursAt(s, "`", i) && !OccursAt(s, "${", i)
    ensures EscapeForTemplate(s) == s
  {
    ReplaceAbsent(s, "`", "\\`");
    ReplaceAbsent(s, "${", "\\${");
  }

  /** The number of positions of `s` where `pat` starts. */
  function Occurrences(s: string, pat: string): nat
    decreases |s|
  {
    if s == [] then 0 else (if pat <= s then 1 else 0) + Occurrences(s[1..], pat)
  }

  /** Every backtick and every `${` of `t` follows a backslash. */
  predicate Marked(t: string) {
    forall j :: 0 <= j < |t| && (t[j] == '`' || OccursAt(t, "${", j)) ==> 0 < j && t[j - 1] == '\\'
  }

  /** A `${` at `i` is a dollar followed by an opening brace. */
  lemma OccursAtDollarBrace(s: string, i: nat)
    ensures OccursAt(s, "${", i) <==> i + 1 < |s| && s[i] == '$' && s[i + 1] == '{'
  {
    if i + 1 < |s| {
      assert s[i..i + 2] == [s[i], s[i + 1]];
    }
  }

  /** Two marked texts stay marked side by side unless they form a new `${` where they meet. */
  lemma MarkedConcat(p: string, q: string)
    requires Marked(p) && Marked(q)
    requires p == [] || q == [] || p[|p| - 1] != '$' || q[0] != '{'
    ensures Marked(p + q)
  {
    var t := p + q;
    forall j | 0 <= j < |t| && (t[j] == '`' || OccursAt(t, "${", j))
      ensures 0 < j && t[j - 1] == '\\'
    {
      OccursAtDollarBrace(t, j);
      if j < |p| {
        OccursAtDollarBrace(p, j);
        assert t[j] == p[j];
        if j + 1 < |p| {
          assert t[j + 1] == p[j + 1];
        } else if j + 1 < |t| {
          assert t[j + 1] == q[0];
        }
        assert p[j] == '`' || OccursAt(p, "${", j);
        assert t[j - 1] == p[j - 1];
      } else {
        var i := j - |p|;
        OccursAtDollarBrace(q, i);
        assert t[j] == q[i];
        if i + 1 < |q| {
          assert t[j + 1] == q[i + 1];
        }
        assert q[i] == '`' || OccursAt(q, "${", i);
        assert t[j - 1] == q[i - 1];
      }
    }
  }

  /** The escaping inserts one character per backtick and per `${`. */
  lemma {:induction false} EscapeRefLength(s: string)
    ensures |EscapeRef(s)| == |s| + Occurrences(s, "`") + Occurrences(s, "${")
    decreases |s|
  {
    if s == [] {
    } else if s[0] == '`' {
      EscapeRefLength(s[1..]);
    } else if DollarBrace(s) {
      EscapeRefLength(s[2..]);
      assert s[1..][1..] == s[2..];
      assert Occurrences(s[1..], "`") == Occurrences(s[2..], "`");
      assert Occurrences(s[1..], "${") == Occurrences(s[2..], "${");
    } else {
      EscapeRefLength(s[1..]);
    }
  }

  /** The pieces the escaping emits for a backtick and for a `${` are marked. */
  lemma MarkedPieces()
    ensures Marked("\\`") && Marked("\\${")
  {
    OccursAtDollarBrace("\\`", 0);
    OccursAtDollarBrace("\\`", 1);
    OccursAtDollarBrace("\\${", 0);
    OccursAtDollarBrace("\\${", 1);
    OccursAtDollarBrace("\\${", 2);
  }

  /** The escaping puts a backslash before every backtick and every `${`. */
  lemma {:induction false} EscapeRefMarked(s: string)
    ensures Marked(EscapeRef(s))
    decreases |s|
  {
    if s == [] {
    } else if s[0] == '`' {
      EscapeRefMarked(s[1..]);
      MarkedPieces();
      MarkedConcat("\\`", EscapeRef(s[1..]));
    } else if DollarBrace(s) {
      EscapeRefMarked(s[2..]);
      MarkedPieces();
      MarkedConcat("\\${", EscapeRef(s[2..]));
    } else {
      EscapeRefMarked(s[1..]);
      if |s| > 1 {
        EscapeFirst(s[1..]);
      }
      MarkedConcat([s[0]], EscapeRef(s[1..]));
    }
  }

  /** The page's escaping, as written, inserts one backslash per backtick and per `${`, before each. */
  lemma EscapeInsertions(s: string)
    ensures |EscapeForTemplate(s)| == |s| + Occurrences(s, "`") + Occurrences(s, "${")
    ensures Marked(EscapeForTemplate(s))
  {
    EscapeRefLength(s);
    EscapeRefMarked(s);
  }

  /** The backtick pass neither creates nor destroys a `${`. */
  lemma {:induction false} BacktickPassKeepsDollarBraces(s: string)
    ensures Occurrences(Replace(s, "`", "\\`"), "${") == Occurrences(s, "${")
    decreases |s|
  {
    if s != [] {
      var rest := Replace(s[1..], "`", "\\`");
      ReplaceBacktickStep(s);
      BacktickPassKeepsDollarBraces(s[1..]);
      if s[0] == '`' {
        assert ("\\`" + rest)[1..] == "`" + rest;
        assert ("`" + rest)[1..] == rest;
      } else {
        assert ([s[0]] + rest)[1..] == rest;
        if |s| > 1 {
          ReplaceBacktickStep(s[1..]);
        }
      }
    }
  }

  /** The meaning of a template literal body in JavaScript. */
  datatype Cooked =
    | Literal(value: string)   // a plain literal with this cooked value
    | ClosedEarly              // an unescaped backtick closes the literal before the page's own
    | Substitution             // an unescaped `${` opens a substitution whose contents run as script
    | Unterminated             // a lone trailing backslash escapes the page's closing backtick
    | Unmodelled               // an escape sequence this model does not interpret

  function Prepend(p: string, k: Cooked): Cooked {
    if k.Literal? then Literal(p + k.value) else k
  }

  /**
   The cooked value of the body `t` of a template literal that the page closes
   with its own backtick. Carriage returns, alone or before a line feed, cook to
   a line feed; a lone trailing backslash escapes the closing backtick.
   */
  function Cook(t: string): Cooked
    decreases |t|
  {
    if t == [] then Literal([])
    else if t[0] == '`' then ClosedEarly
    else if DollarBrace(t) then Substitution
    else if t[0] == '\r' then
      if |t| >= 2 && t[1] == '\n' then Prepend("\n", Cook(t[2..])) else Prepend("\n", Cook(t[1..]))
    else if t[0] == '\\' then
      if |t| == 1 then Unterminated
      else if t[1] == '`' || t[1] == '$' || t[1] == '\\' then Prepend([t[1]], Cook(t[2..]))
      else if t[1] == 'n' then Prepend("\n", Cook(t[2..]))
      else if t[1] == 'r' then Prepend("\r", Cook(t[2..]))
      else if t[1] == 't' then Prepend("\t", Cook(t[2..]))
      else Unmodelled
    else Prepend([t[0]], Cook(t[1..]))
  }

  /** A character the page's escaping leaves as it is and JavaScript reads as itself. */
  predicate Harmless(c: char) {
    c != '\\' && c != '\r'
  }

  /** Without backslashes and carriage returns, the page copies exactly the transcription. */
  lemma {:induction false} EscapeSoundWithoutBackslash(s: string)
    requires forall i :: 0 <= i < |s| ==> Harmless(s[i])
    ensures Cook(EscapeForTemplate(s)) == Literal(s)
    decreases |s|
  {
    CookEscapeRef(s);
  }

  /** A character JavaScript reads as itself, when it does not start a `${`. */
  lemma CookPlain(c: char, x: string)
    requires c != '`' && c != '\r' && c != '\\'
    requires c != '$' || x == [] || x[0] != '{'
    ensures Cook([c] + x) == Prepend([c], Cook(x))
  {
    var t := [c] + x;
    assert t[0] == c && t[1..] == x;
    assert !DollarBrace(t) by {
      assert |t| >= 2 ==> t[1] == x[0];
    }
  }

  /** A backslash before a backtick, a dollar or a backslash stands for that character. */
  lemma CookEscaped(c: char, x: string)
    requires c == '`' || c == '$' || c == '\\'
    ensures Cook(['\\', c] + x) == Prepend([c], Cook(x))
  {
    var t := ['\\', c] + x;
    assert t[0] == '\\' && t[1] == c && t[2..] == x;
  }

  lemma {:induction false} CookEscapeRef(s: string)
    requires forall i :: 0 <= i < |s| ==> Harmless(s[i])
    ensures Cook(EscapeRef(s)) == Literal(s)
    decreases |s|
  {
    if s != [] {
      if s[0] == '`' || !DollarBrace(s) {
        assert forall i :: 0 <= i < |s[1..]| ==> s[1..][i] == s[i + 1];
        CookEscapeRef(s[1..]);
        CookOneStep(s);
      } else {
        assert forall i :: 0 <= i < |s[2..]| ==> s[2..][i] == s[i + 2];
        CookEscapeRef(s[2..]);
        CookDollarStep(s);
      }
    }
  }

  /** A backtick or a plain character, escaped and cooked, comes back as itself. */
  lemma CookOneStep(s: string)
    requires s != [] && Harmless(s[0]) && (s[0] == '`' || !DollarBrace(s))
    requires Cook(EscapeRef(s[1..])) == Literal(s[1..])
    ensures Cook(EscapeRef(s)) == Literal(s)
  {
    var rest := EscapeRef(s[1..]);
    if s[0] == '`' {
      EscapeRefBacktick(s);
      assert EscapeRef(s) == ['\\', '`'] + rest;
      CookEscaped('`', rest);
    } else {
      EscapeRefPlain(s);
      if |s| > 1 {
        EscapeFirst(s[1..]);
        assert s[..2] == [s[0], s[1]];
      }
      CookPlain(s[0], rest);
    }
    assert s == [s[0]] + s[1..];
  }

  /** A `${`, escaped and cooked, comes back as itself. */
  lemma CookDollarStep(s: string)
    requires DollarBrace(s)
    requires Cook(EscapeRef(s[2..])) == Literal(s[2..])
    ensures Cook(EscapeRef(s)) == Literal(s)
  {
    var rest := EscapeRef(s[2..]);
    calc {
      Cook(EscapeRef(s));
      { EscapeRefDollar(s); }
      Cook(['\\', '$'] + ("{" + rest));
      { CookEscaped('$', "{" + rest); }
      Prepend("$", Cook("{" + rest));
      { CookPlain('{', rest); }
      Prepend("$", Prepend("{", Literal(s[2..])));
      Literal("$" + ("{" + s[2..]));
      { assert "$" + ("{" + s[2..]) == s; }
      Literal(s);
    }
  }

  /** Prepending twice is prepending the concatenation. */
  lemma PrependPrepend(p: string, q: string, k: Cooked)
    ensures Prepend(p, Prepend(q, k)) == Prepend(p + q, k)
  {
    if k.Literal? {
      assert p + (q + k.value) == (p + q) + k.value;
    }
  }

  /**
   A prefix without backslashes and carriage returns is copied as itself, whatever
   follows it, unless it ends in a `$` that the rest turns into a `${`.
   */
  lemma {:induction false} EscapePrefixCooks(x: string, y: string)
    requires forall i :: 0 <= i < |x| ==> Harmless(x[i])
    requires x == [] || y == [] || x[|x| - 1] != '$' || y[0] != '{'
    ensures Cook(EscapeRef(x + y)) == Prepend(x, Cook(EscapeRef(y)))
    decreases |x|
  {
    var k := Cook(EscapeRef(y));
    if x == [] {
      assert x + y == y;
    } else if x[0] == '`' || !DollarBrace(x + y) {
      assert forall i :: 0 <= i < |x[1..]| ==> x[1..][i] == x[i + 1];
      EscapePrefixCooks(x[1..], y);
      PrefixHead(x, y);
      PrependSplit(x, 1, k);
    } else {
      assert (x + y)[0] == '$' && (x + y)[1] == '{';
      assert x[0] == (x + y)[0];
      assert |x| >= 2;
      assert forall i :: 0 <= i < |x[2..]| ==> x[2..][i] == x[i + 2];
      EscapePrefixCooks(x[2..], y);
      PrefixDollarHead(x, y);
      PrependSplit(x, 2, k);
    }
  }

  /** Prepending the two halves of a text is prepending the text. */
  lemma PrependSplit(x: string, n: nat, k: Cooked)
    requires n <= |x|
    ensures Prepend(x[..n], Prepend(x[n..], k)) == Prepend(x, k)
  {
    PrependPrepend(x[..n], x[n..], k);
    assert x[..n] + x[n..] == x;
  }

  /** A backtick or a plain first character of the prefix is copied as itself. */
  lemma PrefixHead(x: string, y: string)
    requires x != [] && Harmless(x[0]) && (x[0] == '`' || !DollarBrace(x + y))
    ensures Cook(EscapeRef(x + y)) == Prepend(x[..1], Cook(EscapeRef(x[1..] + y)))
  {
    var s := x + y;
    assert s[0] == x[0] && s[1..] == x[1..] + y;
    assert x[..1] == [s[0]];
    if x[0] == '`' {
      PrefixBacktick(s);
    } else {
      PrefixPlain(s);
    }
  }

  /** A `${` at the front of the prefix is copied as itself. */
  lemma PrefixDollarHead(x: string, y: string)
    requires |x| >= 2 && DollarBrace(x + y)
    ensures Cook(EscapeRef(x + y)) == Prepend(x[..2], Cook(EscapeRef(x[2..] + y)))
  {
    var s := x + y;
    assert s[2..] == x[2..] + y;
    assert x[..2] == [s[0], s[1]] == "${";
    PrefixDollar(s);
  }

  /** A leading backtick, escaped and cooked, comes back as itself before the rest. */
  lemma PrefixBacktick(s: string)
    requires s != [] && s[0] == '`'
    ensures Cook(EscapeRef(s)) == Prepend("`", Cook(EscapeRef(s[1..])))
  {
    EscapeRefBacktick(s);
    CookEscaped('`', EscapeRef(s[1..]));
  }

  /** A leading plain character, escaped and cooked, comes back as itself before the rest. */
  lemma PrefixPlain(s: string)
    requires s != [] && Harmless(s[0]) && s[0] != '`' && !DollarBrace(s)
    ensures Cook(EscapeRef(s)) == Prepend([s[0]], Cook(EscapeRef(s[1..])))
  {
    EscapeRefPlain(s);
    if |s| > 1 {
      EscapeFirst(s[1..]);
      assert s[..2] == [s[0], s[1]];
    }
    CookPlain(s[0], EscapeRef(s[1..]));
  }

  /** A leading `${`, escaped and cooked, comes back as itself before the rest. */
  lemma PrefixDollar(s: string)
    requires DollarBrace(s)
    ensures Cook(EscapeRef(s)) == Prepend("${", Cook(EscapeRef(s[2..])))
  {
    var rest := EscapeRef(s[2..]);
    EscapeRefDollar(s);
    CookEscaped('$', "{" + rest);
    CookPlain('{', rest);
    PrependPrepend("$", "{", Cook(rest));
  }

  /** The escaped `\${` cooks to an escaped backslash followed by a live `${`. */
  lemma BackslashDollarCooks(rest: string)
    ensures Cook(EscapeRef("\\${" + rest)) == Substitution
  {
    var s := "\\${" + rest;
    assert s[1..] == "${" + rest;
    assert EscapeRef(s) == "\\\\${" + EscapeRef(rest);
    assert EscapeRef(s)[2..] == "${" + EscapeRef(rest);
  }

  /**
   A backslash before a `${` in the transcription opens a live substitution in the
   script, after any text without backslashes and carriage returns.
   */
  lemma BackslashOpensSubstitution(x: string, rest: string)
    requires forall i :: 0 <= i < |x| ==> Harmless(x[i])
    ensures Cook(EscapeForTemplate(x + "\\${" + rest)) == Substitution
  {
    assert x + "\\${" + rest == x + ("\\${" + rest);
    EscapePrefixCooks(x, "\\${" + rest);
    BackslashDollarCooks(rest);
  }

  /**
   A transcription whose only backslash is its last character escapes the page's
   closing backtick, so the literal is left unterminated.
   */
  lemma TrailingBackslashUnterminated(x: string)
    requires forall i :: 0 <= i < |x| ==> Harmless(x[i])
    ensures Cook(EscapeForTemplate(x + "\\")) == Unterminated
  {
    EscapePrefixCooks(x, "\\");
    assert EscapeRef("\\") == "\\";
  }

  /**
   A carriage return between texts without backslashes and carriage returns
   reaches the clipboard as a line feed; before a line feed, the pair becomes one
   line feed.
   */
  lemma CarriageReturnBecomesLineFeed(x: string, y: string)
    requires forall i :: 0 <= i < |x| ==> Harmless(x[i])
    requires forall i :: 0 <= i < |y| ==> Harmless(y[i])
    ensures Cook(EscapeForTemplate(x + "\r" + y)) ==
      Literal(x + "\n" + if y != [] && y[0] == '\n' then y[1..] else y)
  {
    var y' := if y != [] && y[0] == '\n' then y[1..] else y;
    assert x + "\r" + y == x + ("\r" + y);
    EscapePrefixCooks(x, "\r" + y);
    CookCarriageReturn(y);
    assert x + ("\n" + y') == x + "\n" + y';
  }

  /** An escaped carriage return cooks to a line feed, swallowing a line feed right after it. */
  lemma CookCarriageReturn(y: string)
    requires forall i :: 0 <= i < |y| ==> Harmless(y[i])
    ensures Cook(EscapeRef("\r" + y)) == Literal("\n" + if y != [] && y[0] == '\n' then y[1..] else y)
  {
    var z := "\r" + y;
    assert z[0] == '\r' && z[1..] == y;
    EscapeRefPlain(z);
    if y != [] && y[0] == '\n' {
      CookCarriageReturnLineFeed(y);
    } else {
      CookLoneCarriageReturn(y);
    }
  }

  lemma CookCarriageReturnLineFeed(y: string)
    requires y != [] && y[0] == '\n'
    requires forall i :: 0 <= i < |y| ==> Harmless(y[i])
    ensures Cook("\r" + EscapeRef(y)) == Literal("\n" + y[1..])
  {
    var e := EscapeRef(y[1..]);
    assert EscapeRef(y) == "\n" + e by {
      assert !DollarBrace(y);
      EscapeRefPlain(y);
    }
    assert forall i :: 0 <= i < |y[1..]| ==> y[1..][i] == y[i + 1];
    CookEscapeRef(y[1..]);
    CookCarriageReturnStep("\r" + ("\n" + e));
    assert ("\r" + ("\n" + e))[2..] == e;
  }

  /** A carriage return and a line feed cook to one line feed. */
  lemma CookCarriageReturnStep(t: string)
    requires |t| >= 2 && t[0] == '\r' && t[1] == '\n'
    ensures Cook(t) == Prepend("\n", Cook(t[2..]))
  {
  }

  lemma CookLoneCarriageReturn(y: string)
    requires y == [] || y[0] != '\n'
    requires forall i :: 0 <= i < |y| ==> Harmless(y[i])
    ensures Cook("\r" + EscapeRef(y)) == Literal("\n" + y)
  {
    var e := EscapeRef(y);
    var t := "\r" + e;
    if y != [] {
      EscapeFirst(y);
    }
    assert |t| >= 2 ==> t[1] == e[0];
    assert t[1..] == e;
    CookEscapeRef(y);
  }

  /** The escaping the page evidently intends: backslash, backtick, dollar and carriage return. */
  function SafeEscape(s: string): string
    decreases |s|
  {
    if s == [] then []
    else if s[0] == '\\' then "\\\\" + SafeEscape(s[1..])
    else if s[0] == '`' then "\\`" + SafeEscape(s[1..])
    else if s[0] == '$' then "\\$" + SafeEscape(s[1..])
    else if s[0] == '\r' then "\\r" + SafeEscape(s[1..])
    else [s[0]] + SafeEscape(s[1..])
  }

  /** Every transcription is copied exactly. */
  lemma {:induction false} SafeEscapeRoundTrip(s: string)
    ensures Cook(SafeEscape(s)) == Literal(s)
    decreases |s|
  {
    if s != [] {
      var rest := SafeEscape(s[1..]);
      var t := SafeEscape(s);
      SafeEscapeRoundTrip(s[1..]);
      if s[0] in "\\`$\r" {
        assert t == ['\\', if s[0] == '\r' then 'r' else s[0]] + rest;
        assert t[2..] == rest;
      } else {
        assert t == [s[0]] + rest;
        assert t[1..] == rest;
      }
      assert [s[0]] + s[1..] == s;
    }
  }
}

=== FILE: download.dfy ===
/**
 What `_download_audio` does once the downloader has exited: turn its exit code,
 its standard error and what is on disk into the audio file's path or an error.

 The downloader process itself is not modelled; its exit code and standard error
 are inputs, and so are whether the requested output file exists and the names
 in the output directory, in the order a directory listing yields them.
 */
module Download {
  import opened Wrappers
  import opened Text

  /** How the external downloader finished. */
  datatype ToolRun = ToolRun(exitCode: int, stderr: string)

  /** The two ways the download step fails. */
  datatype DownloadError =
    | ToolFailed(excerpt: string)   // non-zero exit, with the start of standard error
    | ArtifactMissing               // the tool succeeded but no output file is there

  /** How much of the downloader's standard error an error message keeps. */
  const StderrExcerptLimit: nat := 300

  /** How the message of a failing downloader starts. */
  const ToolFailedPrefix := "yt-dlp falló: "

  /** The message when the downloader leaves no file behind. */
  const NotFoundMessage := "No se encontró el archivo descargado"

  /** `str(e)` of the exception raised for each error; the message tells the two apart and keeps the excerpt. */
  function ErrorMessage(e: DownloadError): (r: string)
    ensures ToolFailedPrefix <= r <==> e.ToolFailed?
    ensures e.ToolFailed? ==> r[|ToolFailedPrefix|..] == e.excerpt
  {
    match e
    case ToolFailed(excerpt) => ToolFailedPrefix + excerpt
    case ArtifactMissing =>
      assert NotFoundMessage[0] != ToolFailedPrefix[0];
      NotFoundMessage
  }

  /**
   `os.path.join(dir, name)` for two components: an absolute name replaces the
   directory; otherwise the result is the directory, a slash unless it is empty or
   already ends in one, and the name.
   */
  function PathJoin(dir: string, name: string): (r: string)
    ensures |name| <= |r| && r[|r| - |name|..] == name
    ensures name != [] && name[0] == '/' ==> r == name
    ensures name == [] || name[0] != '/' ==>
      var head := r[..|r| - |name|];
      && (head == dir || head == dir + "/")
      && (head == [] || head[|head| - 1] == '/')
      && (head == dir + "/" ==> dir == [] || dir[|dir| - 1] != '/')
  {
    if name != [] && name[0] == '/' then name
    else if dir == [] || dir[|dir| - 1] == '/' then dir + name
    else dir + "/" + name
  }

  /** The file name the orchestrator asks for: the video id with an `.mp3` extension. */
  function OutputName(stem: string): string {
    stem + ".mp3"
  }

  /** A directory entry the glob `stem.*` matches: the stem, a dot, then anything. */
  predicate HasStem(name: string, stem: string) {
    stem + "." <= name
  }

  /** The entries `stem.*` matches are exactly the stem, a dot and any rest. */
  lemma HasStemGlob(name: string, stem: string)
    ensures HasStem(name, stem) <==> exists rest :: name == stem + "." + rest
  {
    if HasStem(name, stem) {
      var rest := name[|stem| + 1..];
      assert name == stem + "." + rest;
    }
  }

  /** The first entry, from index `k` on, that has the stem. */
  function FirstWithStem(entries: seq<string>, stem: string, k: nat): (r: Option<nat>)
    requires k <= |entries|
    ensures r.Some? ==> k <= r.value < |entries| && HasStem(entries[r.value], stem)
    ensures r.Some? ==> forall j :: k <= j < r.value ==> !HasStem(entries[j], stem)
    ensures r.None? ==> forall j :: k <= j < |entries| ==> !HasStem(entries[j], stem)
    decreases |entries| - k
  {
    if k == |entries| then None
    else if HasStem(entries[k], stem) then Some(k)
    else FirstWithStem(entries, stem, k + 1)
  }

  /**
   The path `_download_audio` returns, or the error it raises, once the downloader
   has run with output `PathJoin(dir, OutputName(stem))`.
   */
  function ResolveDownload(run: ToolRun, dir: string, stem: string, outputExists: bool, entries: seq<string>)
    : (r: Result<string, DownloadError>)
    // a failing downloader: its standard error, cut to 300 characters
    ensures run.exitCode != 0 <==> r.Failure? && r.error.ToolFailed?
    ensures run.exitCode != 0 ==>
      && r.error.excerpt <= run.stderr
      && |r.error.excerpt| == if |run.stderr| < StderrExcerptLimit then |run.stderr| else StderrExcerptLimit
    // the requested file, when it is there
    ensures run.exitCode == 0 && outputExists ==> r == Success(PathJoin(dir, OutputName(stem)))
    // otherwise the first entry with the same stem
    ensures run.exitCode == 0 && !outputExists && r.Success? ==>
      exists k :: 0 <= k < |entries| && r.value == PathJoin(dir, entries[k]) && HasStem(entries[k], stem)
                  && forall j :: 0 <= j < k ==> !HasStem(entries[j], stem)
    // and nothing found only when no entry has the stem
    ensures r == Failure(ArtifactMissing) <==>
      run.exitCode == 0 && !outputExists && forall j :: 0 <= j < |entries| ==> !HasStem(entries[j], stem)
  {
    if run.exitCode != 0 then Failure(ToolFailed(Take(run.stderr, StderrExcerptLimit)))
    else if outputExists then Success(PathJoin(dir, OutputName(stem)))
    else
      match FirstWithStem(entries, stem, 0)
      case None => Failure(ArtifactMissing)
      case Some(k) => Success(PathJoin(dir, entries[k]))
  }
}

=== FILE: patterns.dfy ===
/**
 The fragment of Python's `re` that the platform table uses, and `re.search` over it.

 A pattern is a sequence of head tokens followed by one capturing group. A head token
 is a choice between literal strings (tried in order, as `(?:a|b)` is) or a non-empty
 greedy run of one character class. The group takes either exactly `count`
 characters of a class (`{11}`) or the longest non-empty run of a class (`+` at the
 end of a pattern).

 `MatchAt` matches without backtracking. `MatchesAt` is the regular-expression
 reading (some way of splitting the text among the tokens works), and
 `MatchAtAgrees` shows the two coincide whenever the head is `Unambiguous`, which
 every pattern of the platform table is.
 */
module Patterns {
  import opened Wrappers
  import opened Text

  /** The character classes the platform patterns use, over ASCII. */
  datatype CharClass =
    | IdChars    // [A-Za-z0-9_-]
    | Digits     // \d
    | Alnums     // [A-Za-z0-9]
    | NonSlash   // [^/]
    | WordChars  // \w

  predicate IsAsciiDigit(c: char) {
    '0' <= c <= '9'
  }

  predicate IsAsciiLetter(c: char) {
    'a' <= c <= 'z' || 'A' <= c <= 'Z'
  }

  predicate InClass(c: char, k: CharClass) {
    match k
    case IdChars => IsAsciiLetter(c) || IsAsciiDigit(c) || c == '_' || c == '-'
    case Digits => IsAsciiDigit(c)
    case Alnums => IsAsciiLetter(c) || IsAsciiDigit(c)
    case NonSlash => c != '/'
    case WordChars => IsAsciiLetter(c) || IsAsciiDigit(c) || c == '_'
  }

  datatype Token =
    | Lit(alts: seq<string>)   // one of the literals, tried in order
    | Run(cls: CharClass)      // a non-empty greedy run of the class

  datatype Capture =
    | Exactly(cls: CharClass, count: nat)   // `[...]{count}`
    | Longest(cls: CharClass)               // `[...]+` with nothing after it

  datatype Pattern = Pattern(head: seq<Token>, group: Capture)

  /** Where the capturing group sits in the searched text: u[lo..hi]. */
  datatype Span = Span(lo: nat, hi: nat)

  // ---------------------------------------------------------------------------
  // The regular-expression reading

  /** u[k..e] is one of the words a token stands for. */
  ghost predicate TokenSpans(t: Token, u: string, k: int, e: int) {
    && 0 <= k <= e <= |u|
    && match t
       case Lit(alts) => u[k..e] in alts
       case Run(cls) => k < e && forall j :: k <= j < e ==> InClass(u[j], cls)
  }

  /** `bs` cuts u[bs[0]..bs[|ts|]] into consecutive pieces, one per token, each spanned by its token. */
  ghost predicate HeadSplit(ts: seq<Token>, u: string, bs: seq<int>) {
    && |bs| == |ts| + 1
    && 0 <= bs[0] <= |u|
    && forall n :: 0 <= n < |ts| ==> TokenSpans(ts[n], u, bs[n], bs[n + 1])
  }

  /** u[lo..hi] is what the group captures when it starts at `lo`. */
  ghost predicate GroupSpans(c: Capture, u: string, lo: int, hi: int) {
    && 0 <= lo <= hi <= |u|
    && (forall j :: lo <= j < hi ==> InClass(u[j], c.cls))
    && match c
       case Exactly(_, n) => hi - lo == n
       case Longest(_) => lo < hi && (hi == |u| || !InClass(u[hi], c.cls))
  }

  /** The pattern matches at position `i` of `u` with its group on `s`. */
  ghost predicate MatchesAt(p: Pattern, u: string, i: int, s: Span) {
    exists bs :: HeadSplit(p.head, u, bs) && bs[0] == i && bs[|p.head|] == s.lo && GroupSpans(p.group, u, s.lo, s.hi)
  }

  /** No alternative is a prefix of another, so at most one of them fits at any position. */
  predicate PrefixFree(alts: seq<string>) {
    forall a, b :: 0 <= a < |alts| && 0 <= b < |alts| && a != b ==> !(alts[a] <= alts[b])
  }

  /**
   Every choice in the head is decided by the text alone: literal alternatives are
   prefix-free, and every run is followed by literals that all start outside its class.
   */
  predicate Unambiguous(ts: seq<Token>) {
    forall n :: 0 <= n < |ts| ==> TokenDecided(ts, n)
  }

  /** The choice made by token `n` of the head is decided by the text alone. */
  predicate TokenDecided(ts: seq<Token>, n: nat)
    requires n < |ts|
  {
    if ts[n].Lit? then PrefixFree(ts[n].alts)
    else
      && n + 1 < |ts|
      && ts[n + 1].Lit?
      && StartOutside(ts[n + 1].alts, ts[n].cls)
  }

  /** Every alternative is non-empty and starts with a character outside the class. */
  predicate StartOutside(alts: seq<string>, cls: CharClass) {
    forall a :: 0 <= a < |alts| ==> alts[a] != [] && !InClass(alts[a][0], cls)
  }

  // ---------------------------------------------------------------------------
  // The matcher

  /** The first alternative, from index `a` on, that starts u[k..]. */
  function FirstAlt(alts: seq<string>, u: string, k: nat, a: nat): (r: Option<nat>)
    requires k <= |u| && a <= |alts|
    ensures r.Some? ==> a <= r.value < |alts| && alts[r.value] <= u[k..]
    ensures r.Some? ==> forall b :: a <= b < r.value ==> !(alts[b] <= u[k..])
    ensures r.None? ==> forall b :: a <= b < |alts| ==> !(alts[b] <= u[k..])
    decreases |alts| - a
  {
    if a == |alts| then None
    else if alts[a] <= u[k..] then Some(a)
    else FirstAlt(alts, u, k, a + 1)
  }

  /** Where the longest run of `cls` characters starting at `k` ends. */
  function RunEnd(u: string, k: nat, cls: CharClass): (e: nat)
    requires k <= |u|
    ensures k <= e <= |u|
    ensures forall j :: k <= j < e ==> InClass(u[j], cls)
    ensures e == |u| || !InClass(u[e], cls)
    decreases |u| - k
  {
    if k == |u| || !InClass(u[k], cls) then k else RunEnd(u, k + 1, cls)
  }

  /** Where the token's match ends when it starts at `k`. */
  function MatchToken(t: Token, u: string, k: nat): (r: Option<nat>)
    requires k <= |u|
    ensures r.Some? ==> TokenSpans(t, u, k, r.value)
  {
    match t
    case Lit(alts) =>
      (match FirstAlt(alts, u, k, 0)
       case Some(a) =>
         assert u[k..k + |alts[a]|] == alts[a];
         Some(k + |alts[a]|)
       case None => None)
    case Run(cls) =>
      var e := RunEnd(u, k, cls);
      if e == k then None else Some(e)
  }

  /** Where the head's match ends when it starts at `k`. */
  function MatchHead(ts: seq<Token>, u: string, k: nat): (r: Option<nat>)
    requires k <= |u|
    ensures r.Some? ==> k <= r.value <= |u|
    decreases |ts|
  {
    if ts == [] then Some(k)
    else
      match MatchToken(ts[0], u, k)
      case None => None
      case Some(m) => MatchHead(ts[1..], u, m)
  }

  /** Where the group ends when it starts at `k`; the group's span is unique. */
  function MatchGroup(c: Capture, u: string, k: nat): (r: Option<nat>)
    requires k <= |u|
    ensures r.Some? ==> GroupSpans(c, u, k, r.value)
    ensures forall e :: GroupSpans(c, u, k, e) ==> r == Some(e)
  {
    var e := RunEnd(u, k, c.cls);
    match c
    case Exactly(_, n) => if e - k >= n then Some(k + n) else None
    case Longest(_) => if e == k then None else Some(e)
  }

  /** The group's span when the pattern is matched at position `i`. */
  function MatchAt(p: Pattern, u: string, i: nat): (r: Option<Span>)
    requires i <= |u|
    ensures r.Some? ==> i <= r.value.lo <= r.value.hi <= |u|
  {
    match MatchHead(p.head, u, i)
    case None => None
    case Some(k) =>
      match MatchGroup(p.group, u, k)
      case None => None
      case Some(e) => Some(Span(k, e))
  }

  /** What matching at each position gives: the group's span, or nothing. */
  type Scan = nat -> Option<Span>

  /** Matching `p` at each position of `u`; positions past the end give nothing. */
  function Attempts(p: Pattern, u: string): Scan {
    (j: nat) => if j <= |u| then MatchAt(p, u, j) else None
  }

  /** The first position from `i` up to `n` where `at` reports a span. */
  function Leftmost(at: Scan, n: nat, i: nat): (r: Option<(nat, Span)>)
    requires i <= n
    ensures r.Some? ==> i <= r.value.0 <= n && at(r.value.0) == Some(r.value.1)
    ensures r.Some? ==> forall j :: i <= j < r.value.0 ==> at(j).None?
    ensures r.None? ==> forall j :: i <= j <= n ==> at(j).None?
    decreases n - i
  {
    match at(i)
    case Some(s) => Some((i, s))
    case None => if i == n then None else Leftmost(at, n, i + 1)
  }

  /** The leftmost position from `i` on where the pattern matches, with its group's span. */
  function SearchFrom(p: Pattern, u: string, i: nat): (r: Option<(nat, Span)>)
    requires i <= |u|
    ensures r.Some? ==> i <= r.value.0 <= |u| && MatchAt(p, u, r.value.0) == Some(r.value.1)
    ensures r.Some? ==> forall j :: i <= j < r.value.0 ==> MatchAt(p, u, j).None?
    ensures r.None? ==> forall j :: i <= j <= |u| ==> MatchAt(p, u, j).None?
  {
    assert forall j :: 0 <= j <= |u| ==> Attempts(p, u)(j) == MatchAt(p, u, j);
    Leftmost(Attempts(p, u), |u|, i)
  }

  /** `m = re.search(p, u)` followed by `m.group(1)`; `None` when there is no match. */
  function Search(p: Pattern, u: string): (r: Option<string>)
    ensures r.Some? ==> IsSubstring(r.value, u)
    ensures r.None? ==> forall j :: 0 <= j <= |u| ==> MatchAt(p, u, j).None?
  {
    match SearchFrom(p, u, 0)
    case Some((_, s)) =>
      assert u[s.lo..s.hi] <= u[s.lo..];
      Some(u[s.lo..s.hi])
    case None => None
  }

  // ---------------------------------------------------------------------------
  // The matcher agrees with the regular-expression reading

  /** Two prefixes of the same text: one is a prefix of the other. */
  lemma PrefixesNest(x: string, y: string, w: string)
    requires x <= w && y <= w
    ensures x <= y || y <= x
  {
    assert forall j :: 0 <= j < |x| && j < |y| ==> x[j] == w[j] == y[j];
  }

  /** The split the matcher found: whatever it accepts, the regular expression accepts. */
  ghost function HeadBounds(ts: seq<Token>, u: string, k: nat): (bs: seq<int>)
    requires k <= |u| && MatchHead(ts, u, k).Some?
    ensures HeadSplit(ts, u, bs) && bs[0] == k && bs[|ts|] == MatchHead(ts, u, k).value
    decreases |ts|
  {
    if ts == [] then [k]
    else
      var m := MatchToken(ts[0], u, k).value;
      var bs := [k] + HeadBounds(ts[1..], u, m);
      assert forall n :: 1 <= n < |ts| ==> ts[n] == ts[1..][n - 1];
      bs
  }

  /** Unambiguous heads split in one way only, and the matcher finds it. */
  lemma {:induction false} MatchHeadComplete(ts: seq<Token>, u: string, bs: seq<int>)
    requires Unambiguous(ts) && HeadSplit(ts, u, bs)
    ensures MatchHead(ts, u, bs[0]) == Some(bs[|ts|])
    decreases |ts|
  {
    if ts != [] {
      var k := bs[0];
      assert TokenDecided(ts, 0);
      assert TokenSpans(ts[0], u, bs[0], bs[1]);
      match ts[0] {
        case Lit(alts) =>
          var a0 :| 0 <= a0 < |alts| && alts[a0] == u[k..bs[1]];
          assert alts[a0] <= u[k..];
          var a := FirstAlt(alts, u, k, 0).value;
          PrefixesNest(alts[a], alts[a0], u[k..]);
          assert a == a0;
        case Run(cls) =>
          assert TokenSpans(ts[1], u, bs[1], bs[2]);
          var w := u[bs[1]..bs[2]];
          var b :| 0 <= b < |ts[1].alts| && ts[1].alts[b] == w;
          assert u[bs[1]] == w[0];
      }
      assert MatchToken(ts[0], u, k) == Some(bs[1]);
      assert Unambiguous(ts[1..]) by {
        forall n | 0 <= n < |ts| - 1
          ensures TokenDecided(ts[1..], n)
        {
          var t := ts[1..];
          assert TokenDecided(ts, n + 1);
          assert t[n] == ts[n + 1];
          if ts[n + 1].Run? {
            assert t[n + 1] == ts[n + 2];
          }
        }
      }
      assert HeadSplit(ts[1..], u, bs[1..]) by {
        forall n | 0 <= n < |ts| - 1
          ensures TokenSpans(ts[1..][n], u, bs[1..][n], bs[1..][n + 1])
        {
          assert TokenSpans(ts[n + 1], u, bs[n + 1], bs[n + 2]);
        }
      }
      MatchHeadComplete(ts[1..], u, bs[1..]);
    }
  }

  /** For an unambiguous head, the matcher and the regular-expression reading agree exactly. */
  lemma MatchAtAgrees(p: Pattern, u: string, i: nat, s: Span)
    requires Unambiguous(p.head) && i <= |u|
    ensures MatchAt(p, u, i) == Some(s) <==> MatchesAt(p, u, i, s)
  {
    if MatchAt(p, u, i) == Some(s) {
      var bs := HeadBounds(p.head, u, i);
      assert HeadSplit(p.head, u, bs) && bs[0] == i && bs[|p.head|] == s.lo && GroupSpans(p.group, u, s.lo, s.hi);
    }
    if MatchesAt(p, u, i, s) {
      var bs :| HeadSplit(p.head, u, bs) && bs[0] == i && bs[|p.head|] == s.lo && GroupSpans(p.group, u, s.lo, s.hi);
      MatchHeadComplete(p.head, u, bs);
    }
  }

  /** The search reports a match at `i` when the pattern matches there and nowhere before. */
  lemma SearchFindsFirst(p: Pattern, u: string, i: nat, s: Span)
    requires i <= |u| && MatchAt(p, u, i) == Some(s)
    requires forall j :: 0 <= j < i ==> MatchAt(p, u, j).None?
    ensures SearchFrom(p, u, 0) == Some((i, s))
    ensures Search(p, u) == Some(u[s.lo..s.hi])
  {
  }

  /**
   `Search` is `re.search`: it reports the group of the leftmost position where the
   pattern matches, and nothing when it matches nowhere.
   */
  lemma SearchIsLeftmost(p: Pattern, u: string)
    requires Unambiguous(p.head)
    ensures SearchFrom(p, u, 0).Some? ==>
      && MatchesAt(p, u, SearchFrom(p, u, 0).value.0, SearchFrom(p, u, 0).value.1)
      && forall j, s :: 0 <= j < SearchFrom(p, u, 0).value.0 ==> !MatchesAt(p, u, j, s)
    ensures SearchFrom(p, u, 0).None? ==> forall j, s :: 0 <= j <= |u| ==> !MatchesAt(p, u, j, s)
  {
    match SearchFrom(p, u, 0)
    case Some((i, s)) =>
      MatchAtAgrees(p, u, i, s);
      forall j, s' | 0 <= j < i
        ensures !MatchesAt(p, u, j, s')
      {
        MatchAtAgrees(p, u, j, s');
      }
    case None =>
      forall j, s' | 0 <= j <= |u|
        ensures !MatchesAt(p, u, j, s')
      {
        MatchAtAgrees(p, u, j, s');
      }
  }
}

=== FILE: platforms.dfy ===
/**
 The platform resolver: an ordered table from platform to URL patterns, the
 first-match-wins dispatch over it, and the generic fallback that names a video
 after the last path segment of its URL.
 */
module Platforms {
  import opened Wrappers
  import opened Text
  import opened Patterns

  datatype Platform = YouTube | TikTok | Twitter | Instagram | Generic

  /** The tag the result record carries for each platform. */
  function PlatformName(p: Platform): string {
    match p
    case YouTube => "youtube"
    case TikTok => "tiktok"
    case Twitter => "twitter"
    case Instagram => "instagram"
    case Generic => "generic"
  }

  /**
   Different platforms carry different tags, so the orchestrator's test
   `platform == "youtube"` holds for exactly the YouTube platform.
   */
  lemma PlatformNamesDistinct(p: Platform, q: Platform)
    ensures PlatformName(p) == PlatformName(q) <==> p == q
    ensures PlatformName(p) == "youtube" <==> p == YouTube
  {
  }

  // `(?:youtube\.com/(?:watch\?v=|shorts/)|youtu\.be/)([A-Za-z0-9_-]{11})`; the nested
  // alternation is written out as three literals, in the order the regex tries them.
  const YouTubePrefixes: seq<string> := ["youtube.com/watch?v=", "youtube.com/shorts/", "youtu.be/"]
  const YouTubeLink: Pattern := Pattern([Lit(YouTubePrefixes)], Exactly(IdChars, 11))

  // `tiktok\.com/@[^/]+/video/(\d+)`
  const TikTokVideo: Pattern := Pattern([Lit(["tiktok.com/@"]), Run(NonSlash), Lit(["/video/"])], Longest(Digits))

  // `(?:vm|vt)\.tiktok\.com/([A-Za-z0-9]+)`
  const TikTokShortLink: Pattern := Pattern([Lit(["vm.tiktok.com/", "vt.tiktok.com/"])], Longest(Alnums))

  // `tiktok\.com/t/([A-Za-z0-9]+)`
  const TikTokTLink: Pattern := Pattern([Lit(["tiktok.com/t/"])], Longest(Alnums))

  // `(?:twitter|x)\.com/\w+/status/(\d+)`
  const TwitterStatus: Pattern := Pattern([Lit(["twitter.com/", "x.com/"]), Run(WordChars), Lit(["/status/"])], Longest(Digits))

  // `instagram\.com/(?:reel|p|tv)/([A-Za-z0-9_-]+)`
  const InstagramPost: Pattern :=
    Pattern([Lit(["instagram.com/reel/", "instagram.com/p/", "instagram.com/tv/"])], Longest(IdChars))

  /** Groups of patterns, one per platform, in the order they are tried. */
  type Table = seq<(Platform, seq<Pattern>)>

  const PlatformPatterns: Table := [
    (YouTube, [YouTubeLink]),
    (TikTok, [TikTokVideo, TikTokShortLink, TikTokTLink]),
    (Twitter, [TwitterStatus]),
    (Instagram, [InstagramPost])
  ]

  // ---------------------------------------------------------------------------
  // First match wins

  /**
   How one pattern is tried against a URL: the capture of its leftmost match, if
   any. The dispatch below is stated for any such function, so that its
   first-match-wins order holds whatever the patterns are; `detect_platform` uses
   `Search`.
   */
  type Finder = (Pattern, string) -> Option<string>

  /** Pattern `k` of group `g` exists in the table. */
  predicate InTable(table: Table, g: int, k: int) {
    0 <= g < |table| && 0 <= k < |table[g].1|
  }

  /** No pattern from group `g0` up to, but not including, pattern `k` of group `g` matches `u`. */
  ghost predicate NothingBetween(find: Finder, table: Table, u: string, g0: int, g: int, k: int) {
    && (forall g', k' :: g0 <= g' < g && InTable(table, g', k') ==> find(table[g'].1[k'], u).None?)
    && (forall k' :: 0 <= k' < k && InTable(table, g, k') ==> find(table[g].1[k'], u).None?)
  }

  /** Pattern `k` of group `g` is the first pattern of the table, in order, that matches `u`. */
  ghost predicate FirstHit(find: Finder, table: Table, u: string, g: int, k: int) {
    InTable(table, g, k) && find(table[g].1[k], u).Some? && NothingBetween(find, table, u, 0, g, k)
  }

  /** Which pattern matched, and what its group captured. */
  datatype Hit = Hit(group: nat, index: nat, id: string)

  /** The first pattern of `pats`, from index `k` on, that matches `u`, with its capture. */
  function FirstInGroup(find: Finder, pats: seq<Pattern>, u: string, k: nat): (r: Option<(nat, string)>)
    requires k <= |pats|
    ensures r.Some? ==> k <= r.value.0 < |pats| && find(pats[r.value.0], u) == Some(r.value.1)
    ensures r.Some? ==> forall k' :: k <= k' < r.value.0 ==> find(pats[k'], u).None?
    ensures r.None? ==> forall k' :: k <= k' < |pats| ==> find(pats[k'], u).None?
    decreases |pats| - k
  {
    if k == |pats| then None
    else
      match find(pats[k], u)
      case Some(id) => Some((k, id))
      case None => FirstInGroup(find, pats, u, k + 1)
  }

  /** The first hit of the table from group `g` on: groups in order, patterns in order within a group. */
  function DispatchFrom(find: Finder, table: Table, u: string, g: nat): (r: Option<Hit>)
    requires g <= |table|
    ensures r.Some? ==>
      && g <= r.value.group
      && InTable(table, r.value.group, r.value.index)
      && find(table[r.value.group].1[r.value.index], u) == Some(r.value.id)
      && NothingBetween(find, table, u, g, r.value.group, r.value.index)
    ensures r.None? ==> forall g', k' :: g <= g' && InTable(table, g', k') ==> find(table[g'].1[k'], u).None?
    decreases |table| - g
  {
    if g == |table| then None
    else
      match FirstInGroup(find, table[g].1, u, 0)
      case Some((k, id)) => Some(Hit(g, k, id))
      case None => DispatchFrom(find, table, u, g + 1)
  }

  /** No pattern of the table matches `u`. */
  ghost predicate NoPatternMatches(find: Finder, table: Table, u: string) {
    forall g, k :: InTable(table, g, k) ==> find(table[g].1[k], u).None?
  }

  /** The dispatch reports exactly the first pattern, in table order, that matches. */
  lemma DispatchFirstHit(find: Finder, table: Table, u: string, g: int, k: int)
    requires FirstHit(find, table, u, g, k)
    ensures DispatchFrom(find, table, u, 0) == Some(Hit(g, k, find(table[g].1[k], u).value))
  {
    var r := DispatchFrom(find, table, u, 0);
    assert r.Some?;
  }

  // ---------------------------------------------------------------------------
  // The generic fallback

  /** `r` is the text after the last slash of `u`, or all of `u` when it has no slash. */
  ghost predicate IsLastSegment(u: string, r: string) {
    && '/' !in r
    && |r| <= |u|
    && u[|u| - |r|..] == r
    && (|r| == |u| || u[|u| - |r| - 1] == '/')
  }

  /** `u.split("/")[-1]`. */
  function LastSegment(u: string): (r: string)
    ensures IsLastSegment(u, r)
  {
    if u == [] || u[|u| - 1] == '/' then []
    else
      var r := LastSegment(u[..|u| - 1]) + [u[|u| - 1]];
      assert u[|u| - |r|..] == u[..|u| - 1][|u| - |r|..] + [u[|u| - 1]];
      r
  }

  /** Only one string is the last segment of a URL. */
  lemma {:induction false} LastSegmentUnique(u: string, r: string)
    requires IsLastSegment(u, r)
    ensures r == LastSegment(u)
  {
    if u == [] {
    } else if u[|u| - 1] == '/' {
    } else {
      assert r != [];
      var v := u[..|u| - 1];
      var r' := r[..|r| - 1];
      assert r == r' + [u[|u| - 1]];
      assert v[|v| - |r'|..] == r';
      assert |r'| == |v| || v[|v| - |r'| - 1] == '/';
      assert '/' !in r' by {
        assert forall j :: 0 <= j < |r'| ==> r'[j] == r[j];
      }
      LastSegmentUnique(v, r');
    }
  }

  /** `url.split("/")[-1] or "video"`: the id used when no platform pattern matches. */
  function GenericId(u: string): (r: string)
    ensures r != []
    ensures u == [] || u[|u| - 1] == '/' ==> r == "video"
    ensures u != [] && u[|u| - 1] != '/' ==> IsLastSegment(u, r)
  {
    var last := LastSegment(u);
    if last == [] then "video" else last
  }

  // ---------------------------------------------------------------------------
  // detect_platform

  /** `detect_platform(url)`: the platform and id of the first matching pattern, or the generic fallback. */
  function DetectPlatform(u: string): (r: (Platform, string))
    ensures r.0 == Generic <==> NoPatternMatches(Search, PlatformPatterns, u)
    ensures r.0 != Generic ==> IsSubstring(r.1, u)
    ensures r.0 == Generic ==> r.1 == GenericId(u)
  {
    match DispatchFrom(Search, PlatformPatterns, u, 0)
    case Some(h) => (PlatformPatterns[h.group].0, h.id)
    case None => (Generic, GenericId(u))
  }

  /** The resolver answers with the platform and capture of the first pattern, in table order, that matches. */
  lemma DetectFirstMatch(u: string, g: int, k: int)
    requires FirstHit(Search, PlatformPatterns, u, g, k)
    ensures DetectPlatform(u) == (PlatformPatterns[g].0, Search(PlatformPatterns[g].1[k], u).value)
  {
    DispatchFirstHit(Search, PlatformPatterns, u, g, k);
  }

  // ---------------------------------------------------------------------------
  // The table is unambiguous

  /** Two words that differ at position `j` are not prefixes of one another. */
  lemma DifferAt(x: string, y: string, j: nat)
    requires j < |x| && j < |y| && x[j] != y[j]
    ensures !(x <= y) && !(y <= x)
  {
  }

  lemma YouTubeUnambiguous()
    ensures Unambiguous(YouTubeLink.head)
  {
    DifferAt(YouTubePrefixes[0], YouTubePrefixes[1], 12);
    DifferAt(YouTubePrefixes[0], YouTubePrefixes[2], 5);
    DifferAt(YouTubePrefixes[1], YouTubePrefixes[2], 5);
    assert TokenDecided(YouTubeLink.head, 0);
  }

  lemma TikTokUnambiguous()
    ensures Unambiguous(TikTokVideo.head)
    ensures Unambiguous(TikTokShortLink.head)
    ensures Unambiguous(TikTokTLink.head)
  {
    assert TokenDecided(TikTokVideo.head, 0);
    assert TokenDecided(TikTokVideo.head, 1);
    assert TokenDecided(TikTokVideo.head, 2);
    DifferAt("vm.tiktok.com/", "vt.tiktok.com/", 1);
    assert TokenDecided(TikTokShortLink.head, 0);
    assert TokenDecided(TikTokTLink.head, 0);
  }

  lemma TwitterUnambiguous()
    ensures Unambiguous(TwitterStatus.head)
  {
    DifferAt("twitter.com/", "x.com/", 0);
    assert TokenDecided(TwitterStatus.head, 0);
    assert TokenDecided(TwitterStatus.head, 1);
    assert TokenDecided(TwitterStatus.head, 2);
  }

  lemma InstagramUnambiguous()
    ensures Unambiguous(InstagramPost.head)
  {
    DifferAt("instagram.com/reel/", "instagram.com/p/", 14);
    DifferAt("instagram.com/reel/", "instagram.com/tv/", 14);
    DifferAt("instagram.com/p/", "instagram.com/tv/", 14);
    assert TokenDecided(InstagramPost.head, 0);
  }

  /** Every pattern of the table is decided by the text alone, so matching needs no backtracking. */
  lemma TableUnambiguous()
    ensures forall g, k :: InTable(PlatformPatterns, g, k) ==> Unambiguous(PlatformPatterns[g].1[k].head)
  {
    YouTubeUnambiguous();
    TikTokUnambiguous();
    TwitterUnambiguous();
    InstagramUnambiguous();
  }

  // ---------------------------------------------------------------------------
  // YouTube links

  /** A pattern whose literals all start with `c` does not match where the text has no `c`. */
  lemma MissesWithoutInitial(p: Pattern, u: string, j: nat, c: char)
    requires j <= |u| && p.head != [] && p.head[0].Lit?
    requires forall a :: 0 <= a < |p.head[0].alts| ==> p.head[0].alts[a] != [] && p.head[0].alts[a][0] == c
    requires j == |u| || u[j] != c
    ensures MatchAt(p, u, j).None?
  {
    var alts := p.head[0].alts;
    forall a | 0 <= a < |alts|
      ensures !(alts[a] <= u[j..])
    {
      assert j < |u| ==> u[j..][0] == u[j];
    }
  }

  /** Where a YouTube link starts, the pattern captures the 11 characters after its prefix. */
  lemma YouTubeMatchesAt(u: string, i: nat, pre: string)
    requires pre in YouTubePrefixes
    requires i + |pre| + 11 <= |u| && u[i..i + |pre|] == pre
    requires forall j :: i + |pre| <= j < i + |pre| + 11 ==> InClass(u[j], IdChars)
    ensures MatchAt(YouTubeLink, u, i) == Some(Span(i + |pre|, i + |pre| + 11))
  {
    TableUnambiguous();
    assert InTable(PlatformPatterns, 0, 0);
    var lo := i + |pre|;
    var s := Span(lo, lo + 11);
    assert TokenSpans(Lit(YouTubePrefixes), u, i, lo);
    assert HeadSplit(YouTubeLink.head, u, [i, lo]);
    assert MatchesAt(YouTubeLink, u, i, s);
    MatchAtAgrees(YouTubeLink, u, i, s);
  }

  /** Every YouTube prefix starts with `y`, so the pattern cannot match before the first `y`. */
  lemma YouTubeMissesBefore(u: string, i: nat)
    requires i <= |u| && 'y' !in u[..i]
    ensures forall j :: 0 <= j < i ==> MatchAt(YouTubeLink, u, j).None?
  {
    forall j | 0 <= j < i
      ensures MatchAt(YouTubeLink, u, j).None?
    {
      assert u[..i][j] == u[j];
      MissesWithoutInitial(YouTubeLink, u, j, 'y');
    }
  }

  /**
   A URL `before + pre + id + after`, where `pre` is `youtube.com/watch?v=`,
   `youtube.com/shorts/` or `youtu.be/` and `id` is 11 id characters, resolves to
   YouTube with exactly `id`, whatever follows it, provided this is the first
   YouTube link: none starts inside `before`.
   */
  lemma YouTubeIdFound(before: string, pre: string, id: string, after: string)
    requires pre in YouTubePrefixes
    requires |id| == 11 && forall j :: 0 <= j < |id| ==> InClass(id[j], IdChars)
    requires forall j :: 0 <= j < |before| ==> MatchAt(YouTubeLink, before + pre + id + after, j).None?
    ensures DetectPlatform(before + pre + id + after) == (YouTube, id)
  {
    var u := before + pre + id + after;
    var i := |before|;
    var lo := i + |pre|;
    assert u[i..lo] == pre;
    assert u[lo..lo + 11] == id;
    YouTubeMatchesAt(u, i, pre);
    SearchFindsFirst(YouTubeLink, u, i, Span(lo, lo + 11));
    YouTubeFirst(u);
  }

  /** In particular, a link preceded by text without a `y` is the first one. */
  lemma YouTubeIdFoundWithoutY(before: string, pre: string, id: string, after: string)
    requires pre in YouTubePrefixes
    requires |id| == 11 && forall j :: 0 <= j < |id| ==> InClass(id[j], IdChars)
    requires 'y' !in before
    ensures DetectPlatform(before + pre + id + after) == (YouTube, id)
  {
    var u := before + pre + id + after;
    assert u[..|before|] == before;
    YouTubeMissesBefore(u, |before|);
    YouTubeIdFound(before, pre, id, after);
  }

  /** The YouTube pattern is the first one tried, so any match of it decides the result. */
  lemma YouTubeFirst(u: string)
    requires Search(YouTubeLink, u).Some?
    ensures DetectPlatform(u) == (YouTube, Search(YouTubeLink, u).value)
  {
    assert PlatformPatterns[0].1[0] == YouTubeLink;
    assert FirstHit(Search, PlatformPatterns, u, 0, 0);
    DetectFirstMatch(u, 0, 0);
  }
}

=== FILE: speech.dfy ===
/**
 The speech-to-text adapter `_groq_transcribe`: find the API key, refuse to go
 on without one, and otherwise send the whole audio file to the hosted model in
 plain-text mode.

 The hosted service is an oracle from the request it receives to the text it
 returns or the message of the error it raises (transport, authentication,
 quota or an unreadable file alike). Whether the client libraries `groq` and
 `streamlit` import is an input too: the adapter imports them before it looks
 for the key, so a failed import is reported even when no key is configured.
 */
module Speech {
  import opened Wrappers

  /** Where the API key may be configured: the application's secrets store, then the environment. */
  datatype Credentials = Credentials(secret: Option<string>, environment: Option<string>)

  /** One transcription request as the client sends it. */
  datatype Request = Request(apiKey: string, model: string, audioPath: string, responseFormat: string, language: Option<string>)

  /** The hosted service: the text for a request, or the message of the error it raises. */
  type SpeechService = Request -> Result<string, string>

  /** The result of the adapter and the number of requests it sent. */
  datatype SpeechRun = SpeechRun(result: Result<string, string>, requests: nat)

  const Model := "whisper-large-v3"
  const ResponseFormat := "text"
  const MissingKeyMessage := "Falta GROQ_API_KEY en secrets o variables de entorno"

  /** A configured value counts only when it is present and not empty, as Python's `or` and `not` decide. */
  predicate Usable(v: Option<string>) {
    v.Some? && v.value != []
  }

  /** `st.secrets.get(K) or os.environ.get(K)`, followed by the `if not api_key` check. */
  function ApiKey(c: Credentials): (r: Option<string>)
    ensures r.Some? <==> Usable(c.secret) || Usable(c.environment)
    ensures Usable(c.secret) ==> r == c.secret
    ensures !Usable(c.secret) && Usable(c.environment) ==> r == c.environment
    ensures r.Some? ==> r.value != []
  {
    if Usable(c.secret) then c.secret
    else if Usable(c.environment) then c.environment
    else None
  }

  /**
   `_groq_transcribe(audio_path, language)`. `importError` is the message of the
   error the two imports raise, or `None` when both succeed.
   */
  function Transcribe(importError: Option<string>, c: Credentials, service: SpeechService, audioPath: string,
                      language: Option<string>): (r: SpeechRun)
    // a request goes out exactly when the libraries import and a key is configured, and at most one
    ensures r.requests <= 1
    ensures r.requests == 1 <==> importError.None? && ApiKey(c).Some?
    // a failed import is reported first, whatever the credentials say
    ensures importError.Some? ==> r.result == Failure(importError.value)
    // otherwise a missing key is reported, without contacting the service
    ensures importError.None? && ApiKey(c).None? ==> r.result == Failure(MissingKeyMessage)
    // without a request there is no text
    ensures r.requests == 0 ==> r.result.Failure?
    // the one request is for the whole file, in plain-text mode, with the key and the caller's language,
    // and the adapter reports exactly what the service answers
    ensures r.requests == 1 ==>
      r.result == service(Request(ApiKey(c).value, Model, audioPath, ResponseFormat, language))
  {
    if importError.Some? then SpeechRun(Failure(importError.value), 0)
    else
      match ApiKey(c)
      case None => SpeechRun(Failure(MissingKeyMessage), 0)
      case Some(key) => SpeechRun(service(Request(key, Model, audioPath, ResponseFormat, language)), 1)
  }

  /** When no request goes out, the speech service cannot influence the outcome. */
  lemma UnsentRequestIrrelevant(importError: Option<string>, c: Credentials, service: SpeechService,
                                other: SpeechService, audioPath: string, language: Option<string>)
    requires Transcribe(importError, c, service, audioPath, language).requests == 0
    ensures Transcribe(importError, c, other, audioPath, language) == Transcribe(importError, c, service, audioPath, language)
  {
  }

  /** A failed import makes the credentials irrelevant: the key is never looked up. */
  lemma ImportCheckedBeforeKey(importError: Option<string>, c: Credentials, d: Credentials, service: SpeechService,
                               audioPath: string, language: Option<string>)
    requires importError.Some?
    ensures Transcribe(importError, c, service, audioPath, language) == Transcribe(importError, d, service, audioPath, language)
    ensures Transcribe(importError, c, service, audioPath, language).requests == 0
  {
  }
}

=== FILE: text.dfy ===
/**
 The few Python `str` operations the pipeline relies on, with Python's meaning:
 slicing `s[:n]`, `str.strip()`, `" ".join(parts)` and its inverse `s.split(" ")`.
 */
module Text {

  /** `r` occurs in `s` as a contiguous run of characters. */
  ghost predicate IsSubstring(r: string, s: string) {
    exists i :: 0 <= i <= |s| && r <= s[i..]
  }

  /** Python's `s[:n]` for a non-negative `n`. */
  function Take(s: string, n: nat): (r: string)
    ensures r <= s
    ensures |r| == if |s| < n then |s| else n
  {
    if |s| <= n then s else s[..n]
  }

  // ---------------------------------------------------------------------------
  // str.strip()

  /** The characters Python's `str.isspace` accepts, which `str.strip()` removes. */
  predicate IsSpace(c: char) {
    || ('\t' <= c <= '\r')                // tab, line feed, vertical tab, form feed, carriage return
    || ('\U{1C}' <= c <= '\U{1F}')        // file, group, record and unit separators
    || c == ' ' || c == '\U{85}' || c == '\U{A0}' || c == '\U{1680}'
    || ('\U{2000}' <= c <= '\U{200A}')
    || c == '\U{2028}' || c == '\U{2029}' || c == '\U{202F}' || c == '\U{205F}' || c == '\U{3000}'
  }

  /** Every character of s[lo..hi] is whitespace. */
  predicate SpacesBetween(s: string, lo: int, hi: int) {
    forall j :: lo <= j < hi && 0 <= j < |s| ==> IsSpace(s[j])
  }

  /** Neither end of `s` is whitespace. */
  predicate IsStripped(s: string) {
    s == [] || (!IsSpace(s[0]) && !IsSpace(s[|s| - 1]))
  }

  /** `r` is `s` with whitespace removed from both ends and nothing else. */
  ghost predicate StripsTo(s: string, r: string) {
    && IsStripped(r)
    && exists i :: 0 <= i <= |s| - |r| && s[i..i + |r|] == r && SpacesBetween(s, 0, i) && SpacesBetween(s, i + |r|, |s|)
  }

  /** Length of the whitespace run that starts `s`. */
  function LeadingSpaces(s: string): (n: nat)
    ensures n <= |s|
    ensures SpacesBetween(s, 0, n)
    ensures n == |s| || !IsSpace(s[n])
  {
    if s == [] || !IsSpace(s[0]) then 0 else 1 + LeadingSpaces(s[1..])
  }

  /** Length of the whitespace run that ends `s`. */
  function TrailingSpaces(s: string): (n: nat)
    ensures n <= |s|
    ensures SpacesBetween(s, |s| - n, |s|)
    ensures n == |s| || !IsSpace(s[|s| - n - 1])
  {
    if s == [] || !IsSpace(s[|s| - 1]) then 0 else 1 + TrailingSpaces(s[..|s| - 1])
  }

  /** Python's `s.strip()`. */
  function Strip(s: string): (r: string)
    ensures StripsTo(s, r)
  {
    var i := LeadingSpaces(s);
    var t := TrailingSpaces(s[i..]);
    var r := s[i..|s| - t];
    assert s[i..i + |r|] == r;
    assert SpacesBetween(s, i + |r|, |s|) by {
      forall j | i + |r| <= j < |s| ensures IsSpace(s[j]) {
        assert s[i..][j - i] == s[j];
      }
    }
    r
  }

  /** Removing whitespace from both ends has only one possible result. */
  lemma StripUnique(s: string, r: string)
    requires StripsTo(s, r)
    ensures r == Strip(s)
  {
    var i :| 0 <= i <= |s| - |r| && s[i..i + |r|] == r && SpacesBetween(s, 0, i) && SpacesBetween(s, i + |r|, |s|);
    var lead := LeadingSpaces(s);
    if r == [] {
      assert lead == |s|;
    } else {
      assert s[i] == r[0];
      assert lead == i;
      var rest := s[i..];
      var t := TrailingSpaces(rest);
      assert rest[|r| - 1] == r[|r| - 1];
      assert SpacesBetween(rest, |r|, |rest|) by {
        forall j | |r| <= j < |rest| ensures IsSpace(rest[j]) {
          assert rest[j] == s[i + j];
        }
      }
      assert t == |rest| - |r|;
    }
  }

  /** Stripping twice is stripping once. */
  lemma StripIdempotent(s: string)
    ensures Strip(Strip(s)) == Strip(s)
  {
    var r := Strip(s);
    assert r[0..0 + |r|] == r && SpacesBetween(r, 0, 0) && SpacesBetween(r, |r|, |r|);
    StripUnique(r, r);
  }

  // ---------------------------------------------------------------------------
  // " ".join(parts) and s.split(" ")

  /** Python's `" ".join(parts)`. */
  function JoinWords(parts: seq<string>): (r: string)
    ensures |parts| == 0 ==> r == []
    ensures |parts| > 0 ==> |r| == TotalLength(parts) + |parts| - 1
  {
    if |parts| == 0 then []
    else if |parts| == 1 then parts[0]
    else parts[0] + " " + JoinWords(parts[1..])
  }

  /** Sum of the lengths of the parts. */
  function TotalLength(parts: seq<string>): nat {
    if parts == [] then 0 else |parts[0]| + TotalLength(parts[1..])
  }

  /** Index of the first space in `s`. */
  function FirstSpace(s: string): (i: nat)
    requires ' ' in s
    ensures i < |s| && s[i] == ' ' && ' ' !in s[..i]
  {
    if s[0] == ' ' then 0 else 1 + FirstSpace(s[1..])
  }

  /** Python's `s.split(" ")`: the pieces between consecutive spaces, empty pieces included. */
  function SplitWords(s: string): (r: seq<string>)
    ensures |r| >= 1
    ensures forall n :: 0 <= n < |r| ==> ' ' !in r[n]
    decreases |s|
  {
    if ' ' !in s then [s]
    else
      var i := FirstSpace(s);
      [s[..i]] + SplitWords(s[i + 1..])
  }

  /** Splitting on spaces undoes joining with spaces, as long as no part contains a space. */
  lemma {:induction false} SplitJoinWords(parts: seq<string>)
    requires |parts| >= 1
    requires forall n :: 0 <= n < |parts| ==> ' ' !in parts[n]
    ensures SplitWords(JoinWords(parts)) == parts
    decreases |parts|
  {
    if |parts| == 1 {
    } else {
      var s := JoinWords(parts);
      var rest := JoinWords(parts[1..]);
      assert s == parts[0] + " " + rest;
      assert s[|parts[0]|] == ' ';
      assert s[..|parts[0]|] == parts[0];
      assert ' ' in s;
      assert FirstSpace(s) == |parts[0]| by {
        var i := FirstSpace(s);
        assert forall j :: 0 <= j < |parts[0]| ==> s[j] == parts[0][j];
        assert forall j :: 0 <= j < i ==> s[..i][j] == s[j];
      }
      assert s[|parts[0]| + 1..] == rest;
      SplitJoinWords(parts[1..]);
    }
  }
}

=== FILE: transcriber.dfy ===
/**
 The orchestrator `transcribe_url`: detect the platform, try the caption service
 for YouTube links, and otherwise download the audio and send it to the speech
 service, shaping every outcome into one result record that never raises.
 */
module Transcriber {
  import opened Wrappers
  import opened Text
  import opened Platforms
  import opened Captions
  import opened Download
  import opened Speech

  /** How the text was obtained, as the result's `method` field names it. */
  datatype Method = YoutubeApi | GroqWhisper

  function MethodName(m: Method): string {
    match m
    case YoutubeApi => "youtube_api"
    case GroqWhisper => "groq_whisper"
  }

  /** The record's `method` string tells the two ways of obtaining the text apart. */
  lemma MethodNamesDistinct(m: Method, n: Method)
    ensures MethodName(m) == MethodName(n) <==> m == n
  {
  }

  /** The dictionary `transcribe_url` returns; `via` is its `method` field. */
  datatype TranscriptionResult = TranscriptionResult(
    success: bool,
    text: Option<string>,
    platform: Platform,
    via: Method,
    error: Option<string>)

  /**
   Everything the orchestrator consults besides the URL and the language: the
   caption service, the temporary directory and what the downloader leaves in it
   (`launch` fails when the downloader cannot be started at all, carrying the
   message of the exception), the configured credentials, whether the speech
   client libraries import (`speechImport` is the message of the import error,
   `None` when they load) and the speech service.
   */
  datatype Environment = Environment(
    captions: CaptionService,
    tempDir: string,
    launch: Result<ToolRun, string>,
    outputExists: bool,
    tempEntries: seq<string>,
    credentials: Credentials,
    speechImport: Option<string>,
    speech: SpeechService)

  /**
   The caption text `_youtube_api` hands back, when `if text:` accepts it: a
   missing text and an empty one both count as no captions.
   */
  function CaptionText(env: Environment, id: string): (r: Option<string>)
    ensures r.Some? ==> r.value != [] && r == FetchCaptions(env.captions, id, DefaultRetries).text
    ensures r.None? ==> FetchCaptions(env.captions, id, DefaultRetries).text in {None, Some([])}
  {
    var t := FetchCaptions(env.captions, id, DefaultRetries).text;
    if t.Some? && t.value != [] then t else None
  }

  /** The YouTube branch returns the captions. */
  predicate HasCaptions(env: Environment, id: string) {
    CaptionText(env, id).Some?
  }

  /** The audio file `_download_audio` produces, or the text of the exception it raises. */
  function AudioFile(env: Environment, id: string): (r: Result<string, string>)
    // the step fails exactly when the downloader cannot start, exits non-zero, or leaves nothing with the stem
    ensures r.Failure? <==>
      || env.launch.Failure?
      || env.launch.value.exitCode != 0
      || (!env.outputExists && forall j :: 0 <= j < |env.tempEntries| ==> !HasStem(env.tempEntries[j], id))
    // the message of each failure
    ensures env.launch.Failure? ==> r == Failure(env.launch.error)
    ensures env.launch.Success? && env.launch.value.exitCode != 0 ==>
      r == Failure(ToolFailedPrefix + Take(env.launch.value.stderr, StderrExcerptLimit))
    ensures env.launch.Success? && env.launch.value.exitCode == 0 && r.Failure? ==>
      r == Failure(NotFoundMessage)
    // a success is the requested `<id>.mp3` when it exists, else the first listed entry with the stem
    ensures r.Success? && env.outputExists ==> r.value == PathJoin(env.tempDir, OutputName(id))
    ensures r.Success? && !env.outputExists ==>
      exists k :: 0 <= k < |env.tempEntries| && r.value == PathJoin(env.tempDir, env.tempEntries[k])
                  && HasStem(env.tempEntries[k], id)
                  && forall j :: 0 <= j < k ==> !HasStem(env.tempEntries[j], id)
  {
    match env.launch
    case Failure(m) => Failure(m)
    case Success(run) =>
      match ResolveDownload(run, env.tempDir, id, env.outputExists, env.tempEntries)
      case Success(p) => Success(p)
      case Failure(e) => Failure(ErrorMessage(e))
  }

  /** The fallback branch: download, transcribe, strip; any exception becomes a failed result. */
  function Fallback(language: Option<string>, env: Environment, platform: Platform, id: string)
    : (r: TranscriptionResult)
    ensures r.platform == platform && r.via == GroqWhisper
    ensures r.success <==> r.error.None?
    ensures r.success <==> r.text.Some?
    ensures r.success ==> IsStripped(r.text.value)
    // an exception of the download step is reported with its message
    ensures AudioFile(env, id).Failure? ==> r.error == Some(AudioFile(env, id).error)
    // so is one of the speech step, and a text is the service's text stripped
    ensures AudioFile(env, id).Success? ==>
      var answer := Transcribe(env.speechImport, env.credentials, env.speech, AudioFile(env, id).value, language).result;
      && (answer.Failure? ==> r.error == Some(answer.error))
      && (answer.Success? ==> r.text == Some(Strip(answer.value)))
  {
    match AudioFile(env, id)
    case Failure(m) => TranscriptionResult(false, None, platform, GroqWhisper, Some(m))
    case Success(path) =>
      match Transcribe(env.speechImport, env.credentials, env.speech, path, language).result
      case Failure(m) => TranscriptionResult(false, None, platform, GroqWhisper, Some(m))
      case Success(t) => TranscriptionResult(true, Some(Strip(t)), platform, GroqWhisper, None)
  }

  /** What `transcribe_url` does once the platform and the identifier are known. */
  function Respond(platform: Platform, id: string, language: Option<string>, env: Environment)
    : (r: TranscriptionResult)
    // the platform is reported as given
    ensures r.platform == platform
    // success, a text and the absence of an error go together
    ensures r.success <==> r.error.None?
    ensures r.success <==> r.text.Some?
    // captions are used exactly when the link is YouTube and the service returned non-empty text
    ensures r.via == YoutubeApi <==> platform == YouTube && HasCaptions(env, id)
    ensures r.via == YoutubeApi ==>
      r.success && r.text == FetchCaptions(env.captions, id, DefaultRetries).text
    // the speech path hands back stripped text
    ensures r.via == GroqWhisper && r.success ==> IsStripped(r.text.value)
  {
    if platform == YouTube && HasCaptions(env, id) then
      TranscriptionResult(true, FetchCaptions(env.captions, id, DefaultRetries).text, platform, YoutubeApi, None)
    else
      Fallback(language, env, platform, id)
  }

  /** `transcribe_url(url, language)`. */
  function TranscribeUrl(url: string, language: Option<string>, env: Environment): (r: TranscriptionResult)
    // the platform is always the detected one
    ensures r.platform == DetectPlatform(url).0
    ensures r.success <==> r.error.None?
    ensures r.success <==> r.text.Some?
    // captions are used exactly when the link is YouTube and the service returned non-empty text
    ensures r.via == YoutubeApi <==>
      DetectPlatform(url).0 == YouTube && HasCaptions(env, DetectPlatform(url).1)
    ensures r.via == YoutubeApi ==>
      r.success && r.text == FetchCaptions(env.captions, DetectPlatform(url).1, DefaultRetries).text
    ensures r.via == GroqWhisper && r.success ==> IsStripped(r.text.value)
  {
    var (platform, id) := DetectPlatform(url);
    Respond(platform, id, language, env)
  }

  /** Once the captions succeed, nothing else in the environment is consulted. */
  lemma CaptionsShortCircuit(id: string, language: Option<string>, env: Environment, other: Environment)
    requires HasCaptions(env, id)
    requires other.captions == env.captions
    ensures Respond(YouTube, id, language, other) == Respond(YouTube, id, language, env)
    ensures Respond(YouTube, id, language, env).via == YoutubeApi
  {
  }

  /** Links of other platforms never reach the caption service. */
  lemma OtherPlatformsSkipCaptions(platform: Platform, id: string, language: Option<string>, env: Environment,
                                   svc: CaptionService)
    requires platform != YouTube
    ensures Respond(platform, id, language, env.(captions := svc)) == Respond(platform, id, language, env)
    ensures Respond(platform, id, language, env).via == GroqWhisper
  {
  }

  /** Without caption text (none at all, or an empty string), the speech path is taken. */
  lemma NoCaptionsFallsBack(platform: Platform, id: string, language: Option<string>, env: Environment)
    requires !HasCaptions(env, id)
    ensures Respond(platform, id, language, env).via == GroqWhisper
  {
  }

  /** A failing downloader is reported with the first 300 characters of its standard error. */
  lemma ToolFailureReported(platform: Platform, id: string, language: Option<string>, env: Environment)
    requires platform != YouTube || !HasCaptions(env, id)
    requires env.launch.Success? && env.launch.value.exitCode != 0
    ensures var r := Respond(platform, id, language, env);
      && !r.success && r.via == GroqWhisper
      && r.error == Some(ToolFailedPrefix + Take(env.launch.value.stderr, StderrExcerptLimit))
  {
  }

  /** A downloader that cannot be started is reported with the message of its exception. */
  lemma LaunchFailureReported(platform: Platform, id: string, language: Option<string>, env: Environment)
    requires platform != YouTube || !HasCaptions(env, id)
    requires env.launch.Failure?
    ensures var r := Respond(platform, id, language, env);
      && !r.success && r.via == GroqWhisper && r.error == Some(env.launch.error)
  {
  }

  /** A downloader that exits cleanly but leaves no file with the stem is reported as such. */
  lemma ArtifactMissingReported(platform: Platform, id: string, language: Option<string>, env: Environment)
    requires platform != YouTube || !HasCaptions(env, id)
    requires env.launch.Success? && env.launch.value.exitCode == 0 && !env.outputExists
    requires forall j :: 0 <= j < |env.tempEntries| ==> !HasStem(env.tempEntries[j], id)
    ensures Respond(platform, id, language, env).error == Some(NotFoundMessage)
  {
    assert ResolveDownload(env.launch.value, env.tempDir, id, env.outputExists, env.tempEntries) == Failure(ArtifactMissing);
  }

  /** Without an API key the speech service is never asked: the result does not depend on it. */
  lemma MissingKeyMakesNoRequest(platform: Platform, id: string, language: Option<string>, env: Environment,
                                 svc: SpeechService)
    requires ApiKey(env.credentials).None?
    ensures Respond(platform, id, language, env.(speech := svc)) == Respond(platform, id, language, env)
    ensures var r := Respond(platform, id, language, env);
      r.via == GroqWhisper ==> !r.success && r.error.Some?
  {
    FallbackWithoutKey(language, env, platform, id, svc);
    assert CaptionText(env.(speech := svc), id) == CaptionText(env, id);
  }

  /** Without an API key the download-and-transcribe path fails, whatever the speech service. */
  lemma FallbackWithoutKey(language: Option<string>, env: Environment, platform: Platform, id: string,
                           svc: SpeechService)
    requires ApiKey(env.credentials).None?
    ensures Fallback(language, env.(speech := svc), platform, id) == Fallback(language, env, platform, id)
    ensures !Fallback(language, env, platform, id).success
  {
    assert AudioFile(env.(speech := svc), id) == AudioFile(env, id);
    if AudioFile(env, id).Success? {
      UnsentRequestIrrelevant(env.speechImport, env.credentials, env.speech, svc, AudioFile(env, id).value, language);
    }
  }

  /** With a downloaded file but no client library, the import error is reported, whatever the key. */
  lemma ImportFailureReported(platform: Platform, id: string, language: Option<string>, env: Environment)
    requires platform != YouTube || !HasCaptions(env, id)
    requires AudioFile(env, id).Success?
    requires env.speechImport.Some?
    ensures var r := Respond(platform, id, language, env);
      !r.success && r.via == GroqWhisper && r.error == env.speechImport
  {
  }

  /** With a downloaded file, the libraries loaded and no key, the missing-key message is reported. */
  lemma MissingKeyReported(platform: Platform, id: string, language: Option<string>, env: Environment)
    requires platform != YouTube || !HasCaptions(env, id)
    requires AudioFile(env, id).Success?
    requires env.speechImport.None? && ApiKey(env.credentials).None?
    ensures var r := Respond(platform, id, language, env);
      !r.success && r.via == GroqWhisper && r.error == Some(MissingKeyMessage)
  {
  }

  /** With a downloaded file, the libraries loaded and a key, the speech path reports exactly what the service says. */
  lemma SpeechOutcomeReported(platform: Platform, id: string, language: Option<string>, env: Environment)
    requires platform != YouTube || !HasCaptions(env, id)
    requires AudioFile(env, id).Success?
    requires env.speechImport.None? && ApiKey(env.credentials).Some?
    ensures var req := Request(ApiKey(env.credentials).value, Model, AudioFile(env, id).value,
                               ResponseFormat, language);
      var r := Respond(platform, id, language, env);
      match env.speech(req)
      case Success(t) => r.success && r.text == Some(Strip(t))
      case Failure(m) => !r.success && r.error == Some(m)
  {
  }
}

=== FILE: wrappers.dfy ===
/** The optional values and outcomes shared by every module of the model. */
module Wrappers {

  /** A value that may be absent; Python's `None` is `None` here. */
  datatype Option<+T> = None | Some(value: T)

  /** The outcome of a step that may raise: its value, or the error it raised. */
  datatype Result<+T, +E> = Success(value: T) | Failure(error: E)
}
